=== FILE: README.md ===
# CHIP-8 interpreter core in Dafny

This project models the `Chip8` class of a small CHIP-8 interpreter, which lives in `chip8.cpp` and `chip8.hpp`. It covers:

- the constructor;
- the byte copy of `load_rom`;
- one fetch–decode–execute cycle (`emulate_cycle`) with its full opcode switch;
- the 60 Hz timer tick;
- the keypad notifications;
- the draw-flag reset and the accessors.

The machine is an immutable datatype, and each operation is a pure function from one machine to the next.

Modules, one per file:

- `Bytes` (`bytes.dfy`): the integer widths of the source and the bitwise byte operators.
  - `uint8_t` is `byte`, `uint16_t` is `word`, and there are 4- and 12-bit opcode fields.
  - `&`, `|` and `^` are defined bit by bit. They are proved against `Bit`, an independent bit reference: bit j of the result is the and, or or xor of the operands' bit j.
  - The sprite bit test reads a row most significant bit first.
- `State` (`state.dfy`): the `Machine` datatype and the operations that are not instruction execution.
  - This covers the constructor (`Init`), `LoadRom`, `StepTimers`, `PressKey`/`ReleaseKey`, `ResetDrawFlag` and the getters.
- `Opcodes` (`opcodes.dfy`): the instruction set as a datatype `Instr`, and `Decode`, which mirrors the nested `switch`.
  - `Encode` is an independent reference. The model proves that encoding the decoded form gives back every 16-bit word. It also proves that decoding the encoding gives back every well-formed instruction.
- `Sprite` (`sprite.dfy`): the pixel loop of `Dxyn`.
  - Each pixel is resolved against `V[x]`/`V[y]` at the moment it is drawn, as the source does.
  - Proved when neither coordinate register is VF: exactly the hit cells flip, and VF reports a collision exactly when a hit cell was lit. When neither coordinate register is VF, drawing the same sprite twice restores the screen.
- `Interpreter` (`interpreter.dfy`): `Step` (fetch, decode, execute) and `Execute`.
  - `Execute` splits into flow, skip, `8xyn`, other arithmetic and memory/screen groups.
  - An access the C++ code would make out of bounds becomes an `Err(Fault)` and leaves the machine unchanged. These accesses are an empty or full stack, a key index above 15, and memory past 4095. In the source they are undefined behaviour.
- `Properties` (`properties.dfy`): what each instruction or pair of instructions does, stated in terms of the machine:
  - pc advance and skips;
  - call/return;
  - carry and borrow flags;
  - the timers;
  - the key wait;
  - draw semantics;
  - BCD;
  - register store/load round trips;
  - when the cycle reports an unmapped opcode.

Behaviour of the code that the model keeps exactly:

- An unmapped opcode does not advance `pc`. The code only logs it at `chip8.cpp:80`, `161`, `215`, `276` and `280`, so the same word is fetched again.
- `8xyE` is modelled exactly as written (`chip8.cpp:156-158`): VF takes the old top bit of V[x], then V[x] is shifted left, then V[x] is overwritten with `V[y] << 1`. For `x != y` the result is `V[y] << 1`. For `x == y` the first shift feeds the second, giving `V[x] * 4 mod 256`. `Properties.ShiftLeftAsWritten` states both cases.
- VF is written before the result in `8xy4`, `8xy5`, `8xy6`, `8xy7`, `8xyE` and `Fx1E`, so an instruction whose `x` or `y` is F reads the new flag. The model keeps this order for all six. The consequences are proved for these cases:
  - `8xy4` and `8xy5` with one or both operands VF: `Properties.AddRegFlagOperand`, `Properties.SubRegFlagOperand` and `Properties.FlagOnlyOperands`;
  - `8Fy6`: `Properties.ShiftRightFlag`;
  - `Fx1E`: `Properties.AddIndexOverflow`.

## Model

| member | source | states |
|---|---|---|
| State.Init | chip8.cpp:8-47 | the new machine has pc 0x200, empty stack, I and both timers 0, draw flag down, every register, key, pixel and stack slot zero, the 80-byte font at addresses 0-79 and every other memory cell zero |
| State.LoadRom | chip8.cpp:55-57 | a program is accepted exactly when it fits in the 3584 bytes after 0x200; byte k lands at 0x200 + k, every other cell and every other field is unchanged |
| State.StepTimers | chip8.cpp:284-291 | each timer goes down by one unless it is already 0, where it stays; nothing else changes |
| State.TicksCountDown | chip8.cpp:284-291 | after k ticks each timer is max(t - k, 0) and nothing else has changed |
| State.PressKey | chip8.cpp:293-295 | the key is held afterwards, every other key and every other field is unchanged |
| State.ReleaseKey | chip8.cpp:297-299 | the key is up afterwards, every other key and every other field is unchanged |
| State.KeyNotifications | chip8.cpp:293-299 | pressing or releasing twice is the same as once, and releasing a key that was up before the press restores the machine |
| State.ResetDrawFlag | chip8.cpp:301-303 | the draw flag is down and nothing else changes |
| State.GetPixelData | chip8.cpp:305-307 | the byte returned is 0 or 1, and 1 exactly when the pixel is lit |
| Bytes.BitOrFlags | chip8.cpp:194 | on flag values 0 and 1, `VF \|= collision` is boolean or |
| Bytes.BitAnd | chip8.cpp:128 | `a & b` has no bit outside either operand, so it is at most each of them |
| Bytes.BitOr | chip8.cpp:124 | `a \| b` keeps every bit of both operands, so it is at least each of them |
| Bytes.BitXor | chip8.cpp:132 | `a ^ b` is zero exactly when the two bytes are equal |
| Bytes.BitAndBits | chip8.cpp:128 | each of the eight bits of `a & b` is set exactly when it is set in both operands |
| Bytes.BitOrBits | chip8.cpp:124 | each of the eight bits of `a \| b` is set exactly when it is set in either operand |
| Bytes.BitXorBits | chip8.cpp:132 | each of the eight bits of `a ^ b` is set exactly when the operands differ in it |
| Bytes.MsbBitOrder | chip8.cpp:191 | the sprite test `row & (0x80 >> col)` is bit 7 - col of the row, so column 0 is the most significant bit |
| Bytes.BitOrCovers | chip8.cpp:124 | masking `a \| b` with either operand gives that operand back: no bit of either is lost |
| Bytes.BitXorInvolution | chip8.cpp:132 | xor-ing a byte with the same byte twice gives it back |
| Bytes.BitAndIdempotent | chip8.cpp:180 | masking twice with kk is masking once, and the masked byte is at most kk |
| Opcodes.WordFields | chip8.cpp:62-65 | the x, y, n, kk and nnn fields of a word assembled from four nibbles are those nibbles and their combinations |
| Opcodes.WordOfFields | chip8.cpp:62-65 | every 16-bit word is reassembled from its own family, x, y and n fields, with kk and nnn its low byte and low 12 bits |
| Opcodes.Decode | chip8.cpp:67-281 | a word that no case of the switch claims is reported together with that word |
| Opcodes.DecodeEncode | chip8.cpp:67-281 | every instruction of the switch is reached by its own encoding with its operands intact (no case shadows another) |
| Opcodes.EncodeDecode | chip8.cpp:67-281 | every word decodes to an instruction whose encoding is that word, so no opcode bit is dropped and unmapped words are exactly the ones no case claims |
| Interpreter.Fetch | chip8.cpp:61 | the instruction word's high byte is memory[pc] and its low byte memory[pc + 1] |
| Interpreter.Step | chip8.cpp:60-61 | a cycle keeps the machine's shape, and with pc + 1 past memory the fetch fails with MemoryOutOfRange |
| Properties.StepRunsEncoded | chip8.cpp:60-67 | when the two bytes at pc are the encoding of instruction i, the cycle is exactly the execution of i |
| Interpreter.Execute | chip8.cpp:67-281 | every successful instruction keeps the array sizes and the stack pointer within the stack |
| Interpreter.ExecuteFlow | chip8.cpp:75-239 | returns, calls, jumps and the key wait keep the machine's shape |
| Interpreter.ExecuteSkip | chip8.cpp:90-213 | the skips keep the machine's shape |
| Interpreter.ExecuteRegisterOp | chip8.cpp:116-163 | the `8xyn` instructions never fail and keep the machine's shape |
| Interpreter.ExecuteArithmetic | chip8.cpp:108-247 | loads, adds, the random byte and the timer transfers never fail and keep the machine's shape |
| Interpreter.ExecuteMemory | chip8.cpp:70-274 | clear, draw, the index instructions, BCD and register store/load keep the machine's shape when they succeed |
| Interpreter.FirstPressed | chip8.cpp:226-233 | the result is the lowest held key at or after the start, and there is none exactly when no key there is held |
| Interpreter.StoreRegisters | chip8.cpp:265-267 | memory[base + i] is V[i] for i below count and every other cell is unchanged |
| Interpreter.LoadRegisters | chip8.cpp:271-273 | V[i] is memory[base + i] for i below count and every other register is unchanged |
| Interpreter.SpriteRows | chip8.cpp:188-189 | the n sprite rows are the n bytes at I |
| Sprite.Target | chip8.cpp:192 | the wrapped framebuffer index of a sprite pixel is always inside the 2048-cell framebuffer |
| Sprite.DrawPixels | chip8.cpp:188-198 | the pixel loop keeps the framebuffer and register file sizes and writes no register but VF |
| Sprite.TargetsDistinct | chip8.cpp:192 | two different pixels of a sprite of at most 32 rows hit two different cells, however the index wraps |
| Sprite.DrawFlips | chip8.cpp:188-198 | with VF neither coordinate register, a cell flips exactly when a set sprite bit hits it |
| Sprite.DrawCollision | chip8.cpp:188-198 | with VF neither coordinate register, VF ends at 1 exactly when it started at 1 or a set sprite bit hit a lit cell |
| Sprite.DrawTwiceRestores | chip8.cpp:183-198 | with VF neither coordinate register, running the pixel loop twice with the same sprite, VF cleared first each time, gives back the framebuffer |
| Properties.SequentialAdvance | chip8.cpp:67-281 | every instruction other than the flow instructions advances pc by exactly 2 when it succeeds |
| Properties.SkipAdvance | chip8.cpp:90-107 | a skip changes only pc, by 4 when its condition holds and 2 otherwise; only the key skips fail, exactly when V[x] names no key |
| Properties.JumpTargets | chip8.cpp:83-176 | 1nnn sets pc to nnn and Bnnn to nnn + V0, changing nothing else |
| Properties.StackFaults | chip8.cpp:75-89 | CALL fails exactly on a full stack and RET exactly on an empty one |
| Properties.CallPushes | chip8.cpp:86-89 | 2nnn on a stack with room stores the address of the CALL itself in the next slot, bumps sp and jumps to nnn, changing nothing else |
| Properties.RetPops | chip8.cpp:75-78 | 00EE on a non-empty stack drops sp by one and resumes at the popped address + 2 (mod 2^16), changing nothing else |
| Properties.CallThenReturn | chip8.cpp:75-89 | a CALL followed by a RET returns to the instruction after the CALL with the stack pointer restored |
| Properties.LoadsAndMoves | chip8.cpp:108-121 | 6xkk leaves exactly V[x] = kk and 8xy0 exactly V[x] = V[y], with pc advanced by 2 and nothing else changed |
| Properties.OrKeepsBits | chip8.cpp:122-125 | 8xy1 sets bit j of V[x] exactly when it is set in the old V[x] or in V[y], for all eight bits; no other register, VF included, changes |
| Properties.AndMasks | chip8.cpp:126-129 | 8xy2 sets bit j of V[x] exactly when it is set in both the old V[x] and V[y], for all eight bits, so the result is at most both operands; no other register, VF included, changes |
| Properties.XorFlipsBits | chip8.cpp:130-133 | 8xy3 sets bit j of V[x] exactly when the old V[x] and V[y] differ in it, so V[x] becomes 0 exactly when they were equal; no other register, VF included, changes |
| Properties.AddImmWraps | chip8.cpp:112-115 | 7xkk adds modulo 256 and touches no other register, VF included |
| Properties.AddRegCarry | chip8.cpp:134-138 | 8xy4 sets VF to the carry out, and V[x] + 256 * VF is the exact sum |
| Properties.AddRegFlagOperand | chip8.cpp:134-138 | with VF as an operand, 8Fy4 leaves carry + V[y] in VF and 8xF4 adds the fresh carry to V[x] |
| Properties.SubRegFlagOperand | chip8.cpp:139-143 | with VF as an operand, 8Fy5 leaves flag - V[y] modulo 256 in VF and 8xF5 subtracts the fresh flag from V[x] |
| Properties.FlagOnlyOperands | chip8.cpp:134-143 | with VF as both operands, 8FF4 leaves 2 in VF when doubling it carries and 0 otherwise, and 8FF5 leaves 0; nothing else but pc changes |
| Properties.SubRegBorrow | chip8.cpp:139-143 | 8xy5 sets VF to 1 exactly when V[x] > V[y], and adding V[y] back gives the old V[x] modulo 256 |
| Properties.ShiftRightBit | chip8.cpp:144-148 | 8xy6 puts the low bit in VF, and twice the new V[x] plus VF is the old V[x] |
| Properties.ShiftRightFlag | chip8.cpp:144-148 | 8Fy6 leaves VF at 0, because the shift discards the bit just stored; nothing else but pc changes |
| Properties.SubNegBorrow | chip8.cpp:149-153 | 8xy7 sets VF to 1 exactly when V[y] > V[x], and new V[x] + old V[x] is V[y] modulo 256 |
| Properties.ShiftLeftAsWritten | chip8.cpp:154-159 | 8xyE puts the old top bit of V[x] in VF and leaves V[x] = 2 * V[y] mod 256, or 4 * V[x] mod 256 when x == y |
| Properties.XorTwiceRestores | chip8.cpp:130-133 | two 8xy3 with x != y give every register back |
| Properties.RandomMasked | chip8.cpp:177-182 | Cxkk sets bit j of V[x] exactly when it is set in both the random byte and kk; so the byte has no bit outside kk, every byte inside the mask is produced by some random input, and nothing else but pc changes |
| Properties.OnlyRandomIsRandom | chip8.cpp:177-182 | no instruction but Cxkk depends on the random byte |
| Properties.InstructionsKeepTimers | chip8.cpp:240-247 | no instruction other than Fx15 and Fx18 changes a timer |
| Properties.TimerTransfers | chip8.cpp:220-247 | Fx07 copies the delay timer to V[x]; Fx15 and Fx18 copy V[x] to the delay and sound timers |
| Properties.WaitKeyBehaviour | chip8.cpp:224-239 | Fx0A with no key held changes nothing, pc included; otherwise it stores the lowest held key in V[x] and advances |
| Properties.WaitThenPress | chip8.cpp:224-239 | a stalled Fx0A, after key k is pressed, stores k and moves on |
| Properties.ClsClears | chip8.cpp:70-74 | 00E0 blanks every pixel, raises the draw flag and advances pc, changing nothing else |
| Properties.DrawSemantics | chip8.cpp:183-198 | Dxyn fails exactly when the sprite runs past memory; otherwise it flips exactly the hit cells, sets VF to 1 exactly on a collision, raises the draw flag and changes nothing else |
| Properties.DrawTwiceErases | chip8.cpp:183-198 | executing the same Dxyn twice restores the framebuffer |
| Properties.DrawHalfRowTwice | chip8.cpp:183-198 | sprite 0xF0 at (0, 0) on a blank screen lights cells 0-3 with VF 0; drawing it again blanks them with VF 1 |
| Properties.LoadIndexSets | chip8.cpp:170-173 | Annn leaves exactly I = nnn, with pc advanced by 2 and nothing else changed |
| Properties.AddIndexOverflow | chip8.cpp:248-252 | Fx1E sets VF exactly when I + V[x] passes 0xFFF, and adds V[x] (the new VF when x is F) to I modulo 2^16 |
| Properties.FontCharGlyph | chip8.cpp:253-256 | Fx29 sets I to 5 * V[x] for every V[x] and changes nothing else but pc; with the font resident and V[x] a digit, I then addresses the five rows of that digit's glyph |
| Properties.BcdDigits | chip8.cpp:257-262 | Fx33 writes three decimal digits whose value is V[x] to I, I+1 and I+2 and no other cell; it fails when I + 2 is past memory |
| Properties.StoreRegsFrame | chip8.cpp:263-268 | Fx55 writes V0..V[x] to I..I+x and no other cell; it fails when I + x is past memory |
| Properties.LoadRegsFrame | chip8.cpp:269-274 | Fx65 reads V0..V[x] from I..I+x and leaves the other registers; it fails when I + x is past memory |
| Properties.StoreThenLoad | chip8.cpp:263-274 | Fx55 followed by Fx65 with the same I and x gives back every register |
| Properties.StepUnmapped | chip8.cpp:275-280 | a cycle reports an unmapped opcode exactly when the word at pc matches no case of the switch |

## Left out

- File reading in `load_rom` (`chip8.cpp:49-54`) is not modelled. `State.LoadRom` takes the file's bytes as a sequence.
- The Mersenne Twister and its seeding (`chip8.cpp:24`, `chip8.cpp:180`) are not modelled. The byte it draws is the `rnd` parameter of `Step`.
- The `std::cerr` diagnostics for unmapped opcodes are not modelled. The step returns `Err(UnmappedOpcode(word))` instead.
- The `opcode` member, which only holds the current word during a cycle, is not modelled.
- Host timing, rendering, audio and keyboard polling are outside the class.
- Undefined behaviour in the source becomes a fault with the machine unchanged. The C++ code would index out of bounds in these cases:
  - RET on an empty stack;
  - CALL on a full stack;
  - Ex9E/ExA1 with V[x] above 15;
  - a fetch at pc 4095 or beyond;
  - a sprite, BCD or register-block access past address 4095.
- State.LoadRom: the source copies a ROM of any length and writes past memory when the ROM exceeds 3584 bytes. The model refuses such a ROM instead.
- State.PressKey: requires a key code below 16. The source does not check it, and a larger code indexes outside the keypad, which is undefined behaviour.
- State.ReleaseKey: requires a key code below 16, for the same reason as State.PressKey.
- State.GetPixelData: requires a pixel index below 2048. The source does not check it, and a larger index is undefined behaviour.
- State.GetDrawFlag and State.GetSoundTimer are plain field reads and carry no contract of their own.
- Interpreter.Execute: its own contract states only that the machine keeps its shape. The `Properties` lemmas named on the group lines below state what each instruction computes, except for the VF-operand cases listed further down.
- Interpreter.ExecuteFlow: states only that the machine keeps its shape. The effects are in Properties.JumpTargets, Properties.StackFaults, Properties.CallPushes, Properties.RetPops, Properties.CallThenReturn and Properties.WaitKeyBehaviour.
- Interpreter.ExecuteSkip: states only that the machine keeps its shape. The effects are in Properties.SkipAdvance.
- Interpreter.ExecuteRegisterOp: states only that the `8xyn` instructions never fail and keep the machine's shape. The effects are in Properties.LoadsAndMoves, Properties.OrKeepsBits, Properties.AndMasks, Properties.XorFlipsBits, Properties.XorTwiceRestores, Properties.AddRegCarry, Properties.AddRegFlagOperand, Properties.FlagOnlyOperands, Properties.SubRegBorrow, Properties.SubRegFlagOperand, Properties.ShiftRightBit, Properties.ShiftRightFlag, Properties.SubNegBorrow and Properties.ShiftLeftAsWritten.
- Interpreter.ExecuteArithmetic: states only that these instructions never fail and keep the machine's shape. The effects are in Properties.LoadsAndMoves, Properties.AddImmWraps, Properties.RandomMasked and Properties.TimerTransfers.
- Interpreter.ExecuteMemory: states only that the machine keeps its shape. The effects are in Properties.ClsClears, Properties.LoadIndexSets, Properties.DrawSemantics, Properties.AddIndexOverflow, Properties.FontCharGlyph, Properties.BcdDigits, Properties.StoreRegsFrame and Properties.LoadRegsFrame.
- Interpreter.Step: its own contract states the shape and the failing fetch. Properties.StepRunsEncoded states which instruction a cycle runs.
- Opcodes.Decode: its own contract states only that an unmapped word is reported with its value. Opcodes.DecodeEncode and Opcodes.EncodeDecode fix what every word decodes to.
- Bytes.BitAnd: its contract states only the order facts. Bytes.BitAndBits states the result bit by bit.
- Bytes.BitOr: its contract states only the order facts. Bytes.BitOrBits states the result bit by bit.
- Bytes.BitXor: its contract states only when the result is zero. Bytes.BitXorBits states the result bit by bit.
- Sprite.DrawTwiceRestores: stated with neither coordinate register VF. Otherwise the first pass changes VF, so the second pass draws at other cells.
- Properties.AddRegCarry: stated for x and y other than F only. With VF as an operand, the flag is overwritten before the result is computed. Properties.AddRegFlagOperand covers exactly one operand VF, and Properties.FlagOnlyOperands covers 8FF4.
- Properties.SubRegBorrow: stated for x and y other than F only. Properties.SubRegFlagOperand covers exactly one operand VF, and Properties.FlagOnlyOperands covers 8FF5.
- Properties.SubNegBorrow: stated for x and y other than F only, because the flag is overwritten before the result is computed. No lemma covers 8xy7 with a VF operand.
- Properties.ShiftRightBit: stated for x other than F only. Properties.ShiftRightFlag covers 8Fy6.
- Properties.ShiftLeftAsWritten: stated for x and y other than F only. No lemma covers 8xyE with a VF operand.
- Properties.DrawSemantics: stated for x and y other than F only. With VF as a coordinate register, the sprite moves while it is drawn, because VF changes mid-loop. `Sprite.DrawPixels` models that case but no lemma characterises it.
- Properties.DrawTwiceErases: stated for x and y other than F only, for the same reason as Properties.DrawSemantics.
- Properties.DrawHalfRowTwice: stated for x and y other than F only, for the same reason as Properties.DrawSemantics.
- Properties.XorTwiceRestores: stated for x != y only. With x == y, the first 8xy3 clears V[x].

=== FILE: bytes.dfy ===
/**
  Fixed-width unsigned integers of the interpreter (uint8_t, uint16_t) as
  bounded ints, and the bitwise operators the instruction set uses on bytes,
  defined bit by bit from the least significant end.
 */
module Bytes {

  /** An 8-bit register or memory cell. */
  type byte = b: int | 0 <= b < 0x100

  /** A 16-bit value: the program counter, the index register, stack entries. */
  type word = w: int | 0 <= w < 0x1_0000

  /** A 4-bit opcode field. */
  type nibble = n: int | 0 <= n < 0x10

  /** A 12-bit address field. */
  type addr = a: int | 0 <= a < 0x1000

  function Pow2(n: nat): (p: nat)
    ensures p >= 1
  {
    if n == 0 then 1 else 2 * Pow2(n - 1)
  }

  /** The low `width` bits of `a & b`. */
  function AndBits(a: nat, b: nat, width: nat): (r: nat)
    ensures r < Pow2(width)
  {
    if width == 0 then 0
    else (if a % 2 == 1 && b % 2 == 1 then 1 else 0) + 2 * AndBits(a / 2, b / 2, width - 1)
  }

  /** The low `width` bits of `a | b`. */
  function OrBits(a: nat, b: nat, width: nat): (r: nat)
    ensures r < Pow2(width)
  {
    if width == 0 then 0
    else (if a % 2 == 1 || b % 2 == 1 then 1 else 0) + 2 * OrBits(a / 2, b / 2, width - 1)
  }

  /** The low `width` bits of `a ^ b`. */
  function XorBits(a: nat, b: nat, width: nat): (r: nat)
    ensures r < Pow2(width)
  {
    if width == 0 then 0
    else (if a % 2 != b % 2 then 1 else 0) + 2 * XorBits(a / 2, b / 2, width - 1)
  }

  /** C++ `a & b` on bytes: it has no bit that is not in both operands, so it is at most each. */
  function BitAnd(a: byte, b: byte): (r: byte)
    ensures r <= a && r <= b
  {
    AndBitsBelow(a, b, 8);
    AndBits(a, b, 8)
  }

  /** C++ `a | b` on bytes: it keeps every bit of both operands, so it is at least each. */
  function BitOr(a: byte, b: byte): (r: byte)
    ensures r >= a && r >= b
  {
    OrBitsAbove(a, b, 8);
    OrBits(a, b, 8)
  }

  /** C++ `a ^ b` on bytes: it is zero exactly when the operands are equal. */
  function BitXor(a: byte, b: byte): (r: byte)
    ensures r == 0 <==> a == b
  {
    XorBitsZero(a, b, 8);
    XorBits(a, b, 8)
  }

  /** Bit `col` of `row`, counting from the most significant bit: `row & (0x80 >> col)` is nonzero. */
  predicate MsbBit(row: byte, col: nat)
    requires col < 8
  {
    (row as bv8) & ((0x80 as bv8) >> col) != 0
  }

  /** Bit `j` of `a`, counting from the least significant end: the reference the bitwise operators are checked against. */
  predicate Bit(a: nat, j: nat) {
    (a / Pow2(j)) % 2 == 1
  }

  /** Dividing by 2p is halving and then dividing by p. */
  lemma HalveDiv(a: nat, p: nat)
    requires p >= 1
    ensures a / (2 * p) == (a / 2) / p
  {
    var q, s := (a / 2) / p, (a / 2) % p;
    assert a / 2 == p * q + s;
    assert a == (2 * p) * q + (2 * s + a % 2);
    DivUnique(a, 2 * p, q, 2 * s + a % 2);
  }

  /** A quotient is the only q with a remainder in range. */
  lemma DivUnique(a: nat, d: nat, q: nat, r: nat)
    requires d >= 1 && a == d * q + r && r < d
    ensures a / d == q
  {
    var q0, r0 := a / d, a % d;
    assert a == d * q0 + r0;
    if q0 < q {
      MulGrows(d, q - q0);
    } else if q0 > q {
      MulGrows(d, q0 - q);
    }
  }

  /** A positive multiple of d is at least d. */
  lemma MulGrows(d: nat, k: nat)
    requires k >= 1
    ensures d * k >= d
  {
  }

  /** Bit 0 of `a` is its parity. */
  lemma BitLow(a: nat)
    ensures Bit(a, 0) == (a % 2 == 1)
  {
  }

  /** Bit j + 1 of `a` is bit j of `a / 2`. */
  lemma BitHalve(a: nat, j: nat)
    ensures Bit(a, j + 1) == Bit(a / 2, j)
  {
    HalveDiv(a, Pow2(j));
  }

  /** Bit j of `a & b` is set exactly when bit j is set in both operands. */
  lemma {:induction false} AndBitsBit(a: nat, b: nat, width: nat, j: nat)
    requires j < width
    ensures Bit(AndBits(a, b, width), j) == (Bit(a, j) && Bit(b, j))
  {
    var r := AndBits(a, b, width);
    assert r % 2 == (if a % 2 == 1 && b % 2 == 1 then 1 else 0);
    if j == 0 {
      BitLow(r);
      BitLow(a);
      BitLow(b);
    } else {
      assert r / 2 == AndBits(a / 2, b / 2, width - 1);
      AndBitsBit(a / 2, b / 2, width - 1, j - 1);
      BitHalve(r, j - 1);
      BitHalve(a, j - 1);
      BitHalve(b, j - 1);
    }
  }

  /** Bit j of `a | b` is set exactly when bit j is set in either operand. */
  lemma {:induction false} OrBitsBit(a: nat, b: nat, width: nat, j: nat)
    requires j < width
    ensures Bit(OrBits(a, b, width), j) == (Bit(a, j) || Bit(b, j))
  {
    var r := OrBits(a, b, width);
    assert r % 2 == (if a % 2 == 1 || b % 2 == 1 then 1 else 0);
    if j == 0 {
      BitLow(r);
      BitLow(a);
      BitLow(b);
    } else {
      assert r / 2 == OrBits(a / 2, b / 2, width - 1);
      OrBitsBit(a / 2, b / 2, width - 1, j - 1);
      BitHalve(r, j - 1);
      BitHalve(a, j - 1);
      BitHalve(b, j - 1);
    }
  }

  /** Bit j of `a ^ b` is set exactly when the operands differ in bit j. */
  lemma {:induction false} XorBitsBit(a: nat, b: nat, width: nat, j: nat)
    requires j < width
    ensures Bit(XorBits(a, b, width), j) == (Bit(a, j) != Bit(b, j))
  {
    var r := XorBits(a, b, width);
    assert r % 2 == (if a % 2 != b % 2 then 1 else 0);
    if j == 0 {
      BitLow(r);
      BitLow(a);
      BitLow(b);
    } else {
      assert r / 2 == XorBits(a / 2, b / 2, width - 1);
      XorBitsBit(a / 2, b / 2, width - 1, j - 1);
      BitHalve(r, j - 1);
      BitHalve(a, j - 1);
      BitHalve(b, j - 1);
    }
  }

  /** Each of the eight bits of `a & b` is the conjunction of the operands' bits. */
  lemma BitAndBits(a: byte, b: byte)
    ensures forall j :: 0 <= j < 8 ==> Bit(BitAnd(a, b), j) == (Bit(a, j) && Bit(b, j))
  {
    forall j | 0 <= j < 8 {
      AndBitsBit(a, b, 8, j);
    }
  }

  /** Each of the eight bits of `a | b` is the disjunction of the operands' bits. */
  lemma BitOrBits(a: byte, b: byte)
    ensures forall j :: 0 <= j < 8 ==> Bit(BitOr(a, b), j) == (Bit(a, j) || Bit(b, j))
  {
    forall j | 0 <= j < 8 {
      OrBitsBit(a, b, 8, j);
    }
  }

  /** Each of the eight bits of `a ^ b` is set exactly where the operands differ. */
  lemma BitXorBits(a: byte, b: byte)
    ensures forall j :: 0 <= j < 8 ==> Bit(BitXor(a, b), j) == (Bit(a, j) != Bit(b, j))
  {
    forall j | 0 <= j < 8 {
      XorBitsBit(a, b, 8, j);
    }
  }

  /**
    The sprite test `row & (0x80 >> col)` reads the bits most significant first:
    column `col` is bit 7 - col.
   */
  lemma MsbBitOrder(row: byte, col: nat)
    requires col < 8
    ensures MsbBit(row, col) <==> Bit(row, 7 - col)
  {
    assert Pow2(1) == 2 && Pow2(2) == 4 && Pow2(3) == 8 && Pow2(4) == 16;
    assert Pow2(5) == 32 && Pow2(6) == 64 && Pow2(7) == 128;
    var b := row as bv8;
    if col == 0 {
      assert MsbBit(row, col) <==> b & 0x80 != 0;
    } else if col == 1 {
      assert MsbBit(row, col) <==> b & 0x40 != 0;
    } else if col == 2 {
      assert MsbBit(row, col) <==> b & 0x20 != 0;
    } else if col == 3 {
      assert MsbBit(row, col) <==> b & 0x10 != 0;
    } else if col == 4 {
      assert MsbBit(row, col) <==> b & 0x08 != 0;
    } else if col == 5 {
      assert MsbBit(row, col) <==> b & 0x04 != 0;
    } else if col == 6 {
      assert MsbBit(row, col) <==> b & 0x02 != 0;
    } else {
      assert MsbBit(row, col) <==> b & 0x01 != 0;
    }
  }

  /** `a & b` is no larger than either operand. */
  lemma {:induction false} AndBitsBelow(a: nat, b: nat, width: nat)
    ensures AndBits(a, b, width) <= a && AndBits(a, b, width) <= b
  {
    if width > 0 {
      AndBitsBelow(a / 2, b / 2, width - 1);
    }
  }

  /** `a | b` is no smaller than either operand, when both fit the width. */
  lemma {:induction false} OrBitsAbove(a: nat, b: nat, width: nat)
    requires a < Pow2(width) && b < Pow2(width)
    ensures OrBits(a, b, width) >= a && OrBits(a, b, width) >= b
  {
    if width > 0 {
      OrBitsAbove(a / 2, b / 2, width - 1);
    }
  }

  /** `a ^ b` is zero exactly when the operands, fitting the width, are equal. */
  lemma {:induction false} XorBitsZero(a: nat, b: nat, width: nat)
    requires a < Pow2(width) && b < Pow2(width)
    ensures XorBits(a, b, width) == 0 <==> a == b
  {
    if width > 0 {
      XorBitsZero(a / 2, b / 2, width - 1);
    }
  }

  /** Masking `a | b` with either operand gives that operand back: no bit of it is lost. */
  lemma {:induction false} OrBitsCovers(a: nat, b: nat, width: nat)
    requires a < Pow2(width) && b < Pow2(width)
    ensures AndBits(OrBits(a, b, width), a, width) == a
    ensures AndBits(OrBits(a, b, width), b, width) == b
  {
    if width > 0 {
      OrBitsCovers(a / 2, b / 2, width - 1);
    }
  }

  /** Masking twice with the same mask is masking once, and the result is no larger than the mask. */
  lemma {:induction false} AndBitsAbsorb(a: nat, b: nat, width: nat)
    ensures AndBits(AndBits(a, b, width), b, width) == AndBits(a, b, width)
    ensures AndBits(a, b, width) <= b
  {
    if width > 0 {
      AndBitsAbsorb(a / 2, b / 2, width - 1);
    }
  }

  /** Xor with the same value twice gives back the original, when it fits the width. */
  lemma {:induction false} XorBitsInvolution(a: nat, b: nat, width: nat)
    requires a < Pow2(width)
    ensures XorBits(XorBits(a, b, width), b, width) == a
  {
    if width > 0 {
      XorBitsInvolution(a / 2, b / 2, width - 1);
    }
  }

  /** Masking twice with the same byte is masking once, and the mask bounds the result. */
  lemma BitAndIdempotent(a: byte, b: byte)
    ensures BitAnd(BitAnd(a, b), b) == BitAnd(a, b)
    ensures BitAnd(a, b) <= b
  {
    AndBitsAbsorb(a, b, 8);
  }

  /** Or-ing two bytes keeps every bit of each: masking the result with an operand gives the operand. */
  lemma BitOrCovers(a: byte, b: byte)
    ensures BitAnd(BitOr(a, b), a) == a && BitAnd(BitOr(a, b), b) == b
  {
    OrBitsCovers(a, b, 8);
  }

  /** Xor with the same byte twice gives back the original. */
  lemma BitXorInvolution(a: byte, b: byte)
    ensures BitXor(BitXor(a, b), b) == a
  {
    XorBitsInvolution(a, b, 8);
  }

  /** Or-ing zero with zero leaves no bit set. */
  lemma {:induction false} OrBitsZero(width: nat)
    ensures OrBits(0, 0, width) == 0
  {
    if width > 0 {
      OrBitsZero(width - 1);
    }
  }

  /** On the flag values 0 and 1, bitwise or is boolean or. */
  lemma BitOrFlags(a: byte, b: byte)
    requires a <= 1 && b <= 1
    ensures BitOr(a, b) == (if a == 1 || b == 1 then 1 else 0)
  {
    OrBitsZero(7);
  }
}

=== FILE: interpreter.dfy ===
/**
  One fetch-decode-execute cycle, `Chip8::emulate_cycle`. Where the source
  indexes an array out of bounds (an empty or full stack, a key number above
  15, a memory address past 4095) the cycle fails with an error and the
  machine is left as it was.
 */
module Interpreter {
  import opened Bytes
  import opened State
  import opened Opcodes
  import opened Sprite

  datatype Fault =
    | StackUnderflow             // 00EE with an empty stack
    | StackOverflow              // 2nnn with a full stack
    | KeyOutOfRange(key: byte)   // Ex9E / ExA1 with V[x] > 15
    | MemoryOutOfRange           // an access at or past address 4096
    | UnmappedOpcode(opcode: word)

  datatype StepResult = Ok(next: Machine) | Err(fault: Fault)

  datatype Option<T> = None | Some(value: T)

  /** The lowest-numbered key at or after `from` that is held down, if any. */
  function FirstPressed(keys: seq<bool>, from: nat): (r: Option<nat>)
    requires from <= |keys|
    ensures r.Some? ==> from <= r.value < |keys| && keys[r.value]
    ensures r.Some? ==> forall k :: from <= k < r.value ==> !keys[k]
    ensures r.None? <==> forall k :: from <= k < |keys| ==> !keys[k]
    decreases |keys| - from
  {
    if from == |keys| then None
    else if keys[from] then Some(from)
    else FirstPressed(keys, from + 1)
  }

  /** Fx55's loop: memory[base + i] := V[i] for i in 0 .. count - 1. */
  function StoreRegisters(memory: seq<byte>, v: seq<byte>, base: nat, count: nat): (r: seq<byte>)
    requires count <= |v| && base + count <= |memory|
    ensures |r| == |memory|
    ensures forall i :: 0 <= i < count ==> r[base + i] == v[i]
    ensures forall a :: 0 <= a < |memory| && !(base <= a < base + count) ==> r[a] == memory[a]
  {
    if count == 0 then memory
    else StoreRegisters(memory, v, base, count - 1)[base + count - 1 := v[count - 1]]
  }

  /** Fx65's loop: V[i] := memory[base + i] for i in 0 .. count - 1. */
  function LoadRegisters(v: seq<byte>, memory: seq<byte>, base: nat, count: nat): (r: seq<byte>)
    requires count <= |v| && base + count <= |memory|
    ensures |r| == |v|
    ensures forall i :: 0 <= i < count ==> r[i] == memory[base + i]
    ensures forall i :: count <= i < |v| ==> r[i] == v[i]
  {
    if count == 0 then v
    else LoadRegisters(v, memory, base, count - 1)[count - 1 := memory[base + count - 1]]
  }

  /** The `n` sprite rows at I that Dxyn reads; none are read when `n` is 0. */
  function SpriteRows(m: Machine, n: nibble): (rows: seq<byte>)
    requires Valid(m) && (n == 0 || m.index + n <= MemorySize)
    ensures |rows| == n
    ensures forall r :: 0 <= r < n ==> rows[r] == m.memory[m.index + r]
  {
    if n == 0 then [] else m.memory[m.index .. m.index + n]
  }

  /** The byte flag of a comparison: 1 when it holds, 0 otherwise. */
  function FlagOf(b: bool): byte {
    if b then 1 else 0
  }

  /** A well-formed machine whose `pc` leaves room for a two-byte instruction. */
  predicate Ready(m: Machine) {
    Valid(m) && m.pc + 1 < MemorySize
  }

  /** Executes one decoded instruction fetched from `pc`, dispatching on its group. */
  function Execute(m: Machine, ins: Instr, rnd: byte): (r: StepResult)
    requires Ready(m)
    ensures r.Ok? ==> Valid(r.next)
  {
    if IsSkip(ins) then ExecuteSkip(m, ins)
    else if IsFlow(ins) then ExecuteFlow(m, ins)
    else if IsRegisterOp(ins) then ExecuteRegisterOp(m, ins)
    else if IsArithmetic(ins) then ExecuteArithmetic(m, ins, rnd)
    else if ins.Unmapped? then Err(UnmappedOpcode(ins.opcode))
    else ExecuteMemory(m, ins)
  }

  /** Instructions that decide where execution continues: jumps, calls, returns and the key wait. */
  function ExecuteFlow(m: Machine, ins: Instr): (r: StepResult)
    requires Ready(m) && IsFlow(ins) && !IsSkip(ins)
    ensures r.Ok? ==> Valid(r.next)
  {
    match ins
    case Ret =>
      if m.sp == 0 then Err(StackUnderflow)
      else
        var sp := m.sp - 1;
        Ok(m.(sp := sp, pc := (m.stack[sp] as int + 2) % 0x1_0000))
    case Jump(a) =>
      Ok(m.(pc := a))
    case Call(a) =>
      if m.sp == StackDepth then Err(StackOverflow)
      else Ok(m.(stack := m.stack[m.sp := m.pc], sp := m.sp + 1, pc := a))
    case JumpOffset(a) =>
      Ok(m.(pc := a as int + m.v[0]))
    case WaitKey(x) =>
      var pressed := FirstPressed(m.keys, 0);
      if pressed.None? then Ok(m)
      else Ok(m.(pc := m.pc + 2, v := m.v[x := pressed.value]))
  }

  /** The conditional skips: pc moves on by 4 when the condition holds and by 2 otherwise. */
  function ExecuteSkip(m: Machine, ins: Instr): (r: StepResult)
    requires Ready(m) && IsSkip(ins)
    ensures r.Ok? ==> Valid(r.next)
  {
    var next := m.pc + 2;
    match ins
    case SkipEqImm(x, kk) =>
      Ok(m.(pc := if m.v[x] == kk then next + 2 else next))
    case SkipNeImm(x, kk) =>
      Ok(m.(pc := if m.v[x] != kk then next + 2 else next))
    case SkipEqReg(x, y, _) =>
      Ok(m.(pc := if m.v[x] == m.v[y] then next + 2 else next))
    case SkipNeReg(x, y, _) =>
      Ok(m.(pc := if m.v[x] != m.v[y] then next + 2 else next))
    case SkipKey(x) =>
      if m.v[x] >= KeyCount then Err(KeyOutOfRange(m.v[x]))
      else Ok(m.(pc := if m.keys[m.v[x]] then next + 2 else next))
    case SkipNoKey(x) =>
      if m.v[x] >= KeyCount then Err(KeyOutOfRange(m.v[x]))
      else Ok(m.(pc := if !m.keys[m.v[x]] then next + 2 else next))
  }

  /**
    The `8xyn` instructions. Each follows the source's statement order, so VF
    is written before a result that may read or overwrite it.
   */
  function ExecuteRegisterOp(m: Machine, ins: Instr): (r: StepResult)
    requires Ready(m) && IsRegisterOp(ins)
    ensures r.Ok? && Valid(r.next)
  {
    var next := m.pc + 2;
    match ins
    case Move(x, y) =>
      Ok(m.(pc := next, v := m.v[x := m.v[y]]))
    case Or(x, y) =>
      Ok(m.(pc := next, v := m.v[x := BitOr(m.v[x], m.v[y])]))
    case And(x, y) =>
      Ok(m.(pc := next, v := m.v[x := BitAnd(m.v[x], m.v[y])]))
    case Xor(x, y) =>
      Ok(m.(pc := next, v := m.v[x := BitXor(m.v[x], m.v[y])]))
    case AddReg(x, y) =>
      var v1 := m.v[Flag := FlagOf(m.v[x] as int + m.v[y] > 0xFF)];
      Ok(m.(pc := next, v := v1[x := (v1[x] as int + v1[y]) % 0x100]))
    case SubReg(x, y) =>
      var v1 := m.v[Flag := FlagOf(m.v[x] > m.v[y])];
      Ok(m.(pc := next, v := v1[x := (v1[x] as int - v1[y]) % 0x100]))
    case ShiftRight(x, _) =>
      var v1 := m.v[Flag := m.v[x] % 2];
      Ok(m.(pc := next, v := v1[x := v1[x] / 2]))
    case SubNeg(x, y) =>
      var v1 := m.v[Flag := FlagOf(m.v[y] > m.v[x])];
      Ok(m.(pc := next, v := v1[x := (v1[y] as int - v1[x]) % 0x100]))
    case ShiftLeft(x, y) =>
      // VF := V[x] >> 7; V[x] <<= 1; V[x] := V[y] << 1 -- the second write to V[x] wins.
      var v1 := m.v[Flag := m.v[x] / 0x80];
      var v2 := v1[x := (v1[x] as int * 2) % 0x100];
      Ok(m.(pc := next, v := v2[x := (v2[y] as int * 2) % 0x100]))
  }

  /** The other instructions that compute on the registers: immediates, the random byte and the timers. */
  function ExecuteArithmetic(m: Machine, ins: Instr, rnd: byte): (r: StepResult)
    requires Ready(m) && IsArithmetic(ins) && !IsRegisterOp(ins)
    ensures r.Ok? && Valid(r.next)
  {
    var next := m.pc + 2;
    match ins
    case LoadImm(x, kk) =>
      Ok(m.(pc := next, v := m.v[x := kk]))
    case AddImm(x, kk) =>
      Ok(m.(pc := next, v := m.v[x := (m.v[x] as int + kk) % 0x100]))
    case Random(x, kk) =>
      Ok(m.(pc := next, v := m.v[x := BitAnd(rnd, kk)]))
    case ReadDelay(x) =>
      Ok(m.(pc := next, v := m.v[x := m.delayTimer]))
    case SetDelay(x) =>
      Ok(m.(pc := next, delayTimer := m.v[x]))
    case SetSound(x) =>
      Ok(m.(pc := next, soundTimer := m.v[x]))
  }

  /** Instructions that work on memory, the index register I or the framebuffer. */
  function ExecuteMemory(m: Machine, ins: Instr): (r: StepResult)
    requires Ready(m)
    requires !IsFlow(ins) && !IsArithmetic(ins) && !ins.Unmapped?
    ensures r.Ok? ==> Valid(r.next)
  {
    var next := m.pc + 2;
    match ins
    case Cls =>
      Ok(m.(gfx := seq(PixelCount, _ => false), drawFlag := true, pc := next))
    case Draw(x, y, n) =>
      if n > 0 && m.index + n > MemorySize then Err(MemoryOutOfRange)
      else
        var drawn := DrawPixels(SpriteRows(m, n), x, y, 0, m.gfx, m.v[Flag := 0]);
        Ok(m.(pc := next, drawFlag := true, gfx := drawn.0, v := drawn.1))
    case LoadIndex(a) =>
      Ok(m.(pc := next, index := a))
    case AddIndex(x) =>
      var v1 := m.v[Flag := FlagOf(m.index as int + m.v[x] > 0xFFF)];
      Ok(m.(pc := next, v := v1, index := (m.index as int + v1[x]) % 0x1_0000))
    case FontChar(x) =>
      Ok(m.(pc := next, index := m.v[x] as int * 5))
    case StoreBcd(x) =>
      if m.index + 2 >= MemorySize then Err(MemoryOutOfRange)
      else
        var vx := m.v[x];
        var i := m.index;
        Ok(m.(pc := next, memory := m.memory[i := vx / 100][i + 1 := (vx / 10) % 10][i + 2 := vx % 10]))
    case StoreRegs(x) =>
      if m.index + x >= MemorySize then Err(MemoryOutOfRange)
      else Ok(m.(pc := next, memory := StoreRegisters(m.memory, m.v, m.index, x + 1)))
    case LoadRegs(x) =>
      if m.index + x >= MemorySize then Err(MemoryOutOfRange)
      else Ok(m.(pc := next, v := LoadRegisters(m.v, m.memory, m.index, x + 1)))
  }

  /** The instruction word at `pc`, high byte first. */
  function Fetch(m: Machine): (op: word)
    requires Ready(m)
    ensures op / 0x100 == m.memory[m.pc] && op % 0x100 == m.memory[m.pc + 1]
  {
    m.memory[m.pc] as int * 0x100 + m.memory[m.pc + 1]
  }

  /**
    One cycle: fetch the word at `pc`, decode it and execute it. `rnd` is the
    random byte the Cxkk instruction consumes.
   */
  function Step(m: Machine, rnd: byte): (r: StepResult)
    requires Valid(m)
    ensures r.Ok? ==> Valid(r.next)
    ensures m.pc + 1 >= MemorySize ==> r == Err(MemoryOutOfRange)
    ensures m.pc + 1 < MemorySize ==> r == Execute(m, Decode(Fetch(m)), rnd)
  {
    if m.pc + 1 >= MemorySize then Err(MemoryOutOfRange)
    else Execute(m, Decode(Fetch(m)), rnd)
  }
}

=== FILE: opcodes.dfy ===
/**
  Decoding of the 16-bit instruction word into the CHIP-8 instruction set,
  following the nested opcode switch of `Chip8::emulate_cycle`.
 */
module Opcodes {
  import opened Bytes

  /** The nibble fields of an instruction word `Fxyn`, `Fxkk` or `Fnnn`. */
  function Family(op: word): nibble { op / 0x1000 }
  function X(op: word): nibble { (op / 0x100) % 0x10 }
  function Y(op: word): nibble { (op / 0x10) % 0x10 }
  function N(op: word): nibble { op % 0x10 }
  function KK(op: word): byte { op % 0x100 }
  function NNN(op: word): addr { op % 0x1000 }

  /**
    One decoded instruction. Fields the interpreter ignores (the low nibble of
    5xyN and 9xyN, the `y` of 8xy6) are kept so that no opcode bit is lost.
   */
  datatype Instr =
    | Cls                                      // 00E0
    | Ret                                      // 00EE
    | Jump(target: addr)                       // 1nnn
    | Call(target: addr)                       // 2nnn
    | SkipEqImm(x: nibble, kk: byte)           // 3xkk
    | SkipNeImm(x: nibble, kk: byte)           // 4xkk
    | SkipEqReg(x: nibble, y: nibble, n: nibble) // 5xyN
    | LoadImm(x: nibble, kk: byte)             // 6xkk
    | AddImm(x: nibble, kk: byte)              // 7xkk
    | Move(x: nibble, y: nibble)               // 8xy0
    | Or(x: nibble, y: nibble)                 // 8xy1
    | And(x: nibble, y: nibble)                // 8xy2
    | Xor(x: nibble, y: nibble)                // 8xy3
    | AddReg(x: nibble, y: nibble)             // 8xy4
    | SubReg(x: nibble, y: nibble)             // 8xy5
    | ShiftRight(x: nibble, y: nibble)         // 8xy6
    | SubNeg(x: nibble, y: nibble)             // 8xy7
    | ShiftLeft(x: nibble, y: nibble)          // 8xyE
    | SkipNeReg(x: nibble, y: nibble, n: nibble) // 9xyN
    | LoadIndex(target: addr)                  // Annn
    | JumpOffset(target: addr)                 // Bnnn
    | Random(x: nibble, kk: byte)              // Cxkk
    | Draw(x: nibble, y: nibble, n: nibble)    // Dxyn
    | SkipKey(x: nibble)                       // Ex9E
    | SkipNoKey(x: nibble)                     // ExA1
    | ReadDelay(x: nibble)                     // Fx07
    | WaitKey(x: nibble)                       // Fx0A
    | SetDelay(x: nibble)                      // Fx15
    | SetSound(x: nibble)                      // Fx18
    | AddIndex(x: nibble)                      // Fx1E
    | FontChar(x: nibble)                      // Fx29
    | StoreBcd(x: nibble)                      // Fx33
    | StoreRegs(x: nibble)                     // Fx55
    | LoadRegs(x: nibble)                      // Fx65
    | Unmapped(opcode: word)                   // anything else

  /** Instructions that decide where execution continues. */
  predicate IsFlow(i: Instr) {
    i.Ret? || i.Jump? || i.Call? || i.JumpOffset? || IsSkip(i) || i.WaitKey?
  }

  /** The conditional skips: they step over the next instruction when their condition holds. */
  predicate IsSkip(i: Instr) {
    i.SkipEqImm? || i.SkipNeImm? || i.SkipEqReg? || i.SkipNeReg? || i.SkipKey? || i.SkipNoKey?
  }

  /** The `8xyn` register-to-register instructions. */
  predicate IsRegisterOp(i: Instr) {
    i.Move? || i.Or? || i.And? || i.Xor? || i.AddReg? || i.SubReg? || i.ShiftRight? || i.SubNeg? || i.ShiftLeft?
  }

  /** Instructions that compute on the registers and the timers. */
  predicate IsArithmetic(i: Instr) {
    || IsRegisterOp(i) || i.LoadImm? || i.AddImm? || i.Random? || i.ReadDelay? || i.SetDelay? || i.SetSound?
  }

  /** Decodes one instruction word; words the interpreter has no case for become `Unmapped`. */
  function Decode(op: word): (i: Instr)
    ensures i.Unmapped? ==> i.opcode == op
  {
    var f, x, y, n, kk, nnn := Family(op), X(op), Y(op), N(op), KK(op), NNN(op);
    if f == 0x0 then
      if op == 0x00E0 then Cls
      else if op == 0x00EE then Ret
      else Unmapped(op)
    else if f == 0x1 then Jump(nnn)
    else if f == 0x2 then Call(nnn)
    else if f == 0x3 then SkipEqImm(x, kk)
    else if f == 0x4 then SkipNeImm(x, kk)
    else if f == 0x5 then SkipEqReg(x, y, n)
    else if f == 0x6 then LoadImm(x, kk)
    else if f == 0x7 then AddImm(x, kk)
    else if f == 0x8 then DecodeArithmetic(op, x, y, n)
    else if f == 0x9 then SkipNeReg(x, y, n)
    else if f == 0xA then LoadIndex(nnn)
    else if f == 0xB then JumpOffset(nnn)
    else if f == 0xC then Random(x, kk)
    else if f == 0xD then Draw(x, y, n)
    else if f == 0xE then DecodeKey(op, x, kk)
    else DecodeMisc(op, x, kk)
  }

  /** The `8xyn` group, selected by its low nibble `n`. */
  function DecodeArithmetic(op: word, x: nibble, y: nibble, n: nibble): Instr {
    if n == 0x0 then Move(x, y)
    else if n == 0x1 then Or(x, y)
    else if n == 0x2 then And(x, y)
    else if n == 0x3 then Xor(x, y)
    else if n == 0x4 then AddReg(x, y)
    else if n == 0x5 then SubReg(x, y)
    else if n == 0x6 then ShiftRight(x, y)
    else if n == 0x7 then SubNeg(x, y)
    else if n == 0xE then ShiftLeft(x, y)
    else Unmapped(op)
  }

  /** The `Exkk` group, selected by its low byte `kk`. */
  function DecodeKey(op: word, x: nibble, kk: byte): Instr {
    if kk == 0x9E then SkipKey(x)
    else if kk == 0xA1 then SkipNoKey(x)
    else Unmapped(op)
  }

  /** The `Fxkk` group, selected by its low byte `kk`. */
  function DecodeMisc(op: word, x: nibble, kk: byte): Instr {
    if kk == 0x07 then ReadDelay(x)
    else if kk == 0x0A then WaitKey(x)
    else if kk == 0x15 then SetDelay(x)
    else if kk == 0x18 then SetSound(x)
    else if kk == 0x1E then AddIndex(x)
    else if kk == 0x29 then FontChar(x)
    else if kk == 0x33 then StoreBcd(x)
    else if kk == 0x55 then StoreRegs(x)
    else if kk == 0x65 then LoadRegs(x)
    else Unmapped(op)
  }

  /** Assembles an instruction word from its four nibbles, most significant first. */
  function Word(f: nibble, x: nibble, y: nibble, n: nibble): word {
    f * 0x1000 + x * 0x100 + y * 0x10 + n
  }

  /** The instruction word of an instruction: the reference against which `Decode` is checked. */
  function Encode(i: Instr): word {
    match i
    case Cls => 0x00E0
    case Ret => 0x00EE
    case Jump(a) => 0x1000 + a
    case Call(a) => 0x2000 + a
    case SkipEqImm(x, kk) => Word(0x3, x, kk / 0x10, kk % 0x10)
    case SkipNeImm(x, kk) => Word(0x4, x, kk / 0x10, kk % 0x10)
    case SkipEqReg(x, y, n) => Word(0x5, x, y, n)
    case LoadImm(x, kk) => Word(0x6, x, kk / 0x10, kk % 0x10)
    case AddImm(x, kk) => Word(0x7, x, kk / 0x10, kk % 0x10)
    case Move(x, y) => Word(0x8, x, y, 0x0)
    case Or(x, y) => Word(0x8, x, y, 0x1)
    case And(x, y) => Word(0x8, x, y, 0x2)
    case Xor(x, y) => Word(0x8, x, y, 0x3)
    case AddReg(x, y) => Word(0x8, x, y, 0x4)
    case SubReg(x, y) => Word(0x8, x, y, 0x5)
    case ShiftRight(x, y) => Word(0x8, x, y, 0x6)
    case SubNeg(x, y) => Word(0x8, x, y, 0x7)
    case ShiftLeft(x, y) => Word(0x8, x, y, 0xE)
    case SkipNeReg(x, y, n) => Word(0x9, x, y, n)
    case LoadIndex(a) => 0xA000 + a
    case JumpOffset(a) => 0xB000 + a
    case Random(x, kk) => Word(0xC, x, kk / 0x10, kk % 0x10)
    case Draw(x, y, n) => Word(0xD, x, y, n)
    case SkipKey(x) => Word(0xE, x, 0x9, 0xE)
    case SkipNoKey(x) => Word(0xE, x, 0xA, 0x1)
    case ReadDelay(x) => Word(0xF, x, 0x0, 0x7)
    case WaitKey(x) => Word(0xF, x, 0x0, 0xA)
    case SetDelay(x) => Word(0xF, x, 0x1, 0x5)
    case SetSound(x) => Word(0xF, x, 0x1, 0x8)
    case AddIndex(x) => Word(0xF, x, 0x1, 0xE)
    case FontChar(x) => Word(0xF, x, 0x2, 0x9)
    case StoreBcd(x) => Word(0xF, x, 0x3, 0x3)
    case StoreRegs(x) => Word(0xF, x, 0x5, 0x5)
    case LoadRegs(x) => Word(0xF, x, 0x6, 0x5)
    case Unmapped(op) => op
  }

  /** An `Unmapped` value is well formed only when it holds a word `Decode` has no case for. */
  predicate WellFormed(i: Instr) {
    i.Unmapped? ==> Decode(i.opcode) == i
  }

  /** The nibble fields of an assembled word are the nibbles it was assembled from. */
  lemma {:induction false} WordFields(f: nibble, x: nibble, y: nibble, n: nibble)
    ensures Family(Word(f, x, y, n)) == f
    ensures X(Word(f, x, y, n)) == x
    ensures Y(Word(f, x, y, n)) == y
    ensures N(Word(f, x, y, n)) == n
    ensures KK(Word(f, x, y, n)) == y * 0x10 + n
    ensures NNN(Word(f, x, y, n)) == x * 0x100 + y * 0x10 + n
  {
    var w := Word(f, x, y, n);
    var hi, mid := f * 0x10 + x, f * 0x100 + x * 0x10 + y;
    assert w == f * 0x1000 + (x * 0x100 + y * 0x10 + n);
    assert w / 0x100 == hi by {
      assert w == hi * 0x100 + (y * 0x10 + n);
    }
    assert hi % 0x10 == x;
    assert w / 0x10 == mid by {
      assert w == mid * 0x10 + n;
    }
    assert mid % 0x10 == y;
  }

  /** The family and address fields of `fnnn`. */
  lemma AddrFields(f: nibble, a: addr)
    ensures f * 0x1000 + a < 0x1_0000
    ensures Family(f * 0x1000 + a) == f
    ensures NNN(f * 0x1000 + a) == a
  {
  }

  /** Every word is assembled from its own nibble fields. */
  lemma {:induction false} WordOfFields(op: word)
    ensures Word(Family(op), X(op), Y(op), N(op)) == op
    ensures KK(op) == Y(op) * 0x10 + N(op)
    ensures NNN(op) == X(op) * 0x100 + KK(op)
  {
    var q1, n := op / 0x10, op % 0x10;
    var q2, y := q1 / 0x10, q1 % 0x10;
    var f, x := q2 / 0x10, q2 % 0x10;
    assert op == ((f * 0x10 + x) * 0x10 + y) * 0x10 + n;
    assert N(op) == n;
    assert Y(op) == y;
    assert X(op) == x by {
      assert op == q2 * 0x100 + (y * 0x10 + n);
      assert op / 0x100 == q2;
    }
    assert Family(op) == f by {
      assert op == f * 0x1000 + (x * 0x100 + y * 0x10 + n);
    }
    assert KK(op) == y * 0x10 + n by {
      assert op == q2 * 0x100 + (y * 0x10 + n);
    }
    assert NNN(op) == x * 0x100 + y * 0x10 + n by {
      assert op == f * 0x1000 + (x * 0x100 + y * 0x10 + n);
    }
  }

  /** Decoding the encoding of a well-formed instruction gives it back. */
  lemma {:induction false} DecodeEncode(i: Instr)
    requires WellFormed(i)
    ensures Decode(Encode(i)) == i
  {
    match i
    case Cls =>
    case Ret =>
    case Jump(a) => AddrFields(0x1, a);
    case Call(a) => AddrFields(0x2, a);
    case LoadIndex(a) => AddrFields(0xA, a);
    case JumpOffset(a) => AddrFields(0xB, a);
    case SkipEqImm(x, kk) => DecodeEncodeImmediate(i);
    case SkipNeImm(x, kk) => DecodeEncodeImmediate(i);
    case LoadImm(x, kk) => DecodeEncodeImmediate(i);
    case AddImm(x, kk) => DecodeEncodeImmediate(i);
    case Random(x, kk) => DecodeEncodeImmediate(i);
    case SkipEqReg(x, y, n) => WordFields(0x5, x, y, n);
    case SkipNeReg(x, y, n) => WordFields(0x9, x, y, n);
    case Draw(x, y, n) => WordFields(0xD, x, y, n);
    case Move(x, y) => DecodeEncodeArithmetic(i);
    case Or(x, y) => DecodeEncodeArithmetic(i);
    case And(x, y) => DecodeEncodeArithmetic(i);
    case Xor(x, y) => DecodeEncodeArithmetic(i);
    case AddReg(x, y) => DecodeEncodeArithmetic(i);
    case SubReg(x, y) => DecodeEncodeArithmetic(i);
    case ShiftRight(x, y) => DecodeEncodeArithmetic(i);
    case SubNeg(x, y) => DecodeEncodeArithmetic(i);
    case ShiftLeft(x, y) => DecodeEncodeArithmetic(i);
    case SkipKey(x) => WordFields(0xE, x, 0x9, 0xE);
    case SkipNoKey(x) => WordFields(0xE, x, 0xA, 0x1);
    case ReadDelay(x) => DecodeEncodeMisc(i);
    case WaitKey(x) => DecodeEncodeMisc(i);
    case SetDelay(x) => DecodeEncodeMisc(i);
    case SetSound(x) => DecodeEncodeMisc(i);
    case AddIndex(x) => DecodeEncodeMisc(i);
    case FontChar(x) => DecodeEncodeMemory(i);
    case StoreBcd(x) => DecodeEncodeMemory(i);
    case StoreRegs(x) => DecodeEncodeMemory(i);
    case LoadRegs(x) => DecodeEncodeMemory(i);
    case Unmapped(op) =>
  }

  lemma {:induction false} DecodeEncodeImmediate(i: Instr)
    requires i.SkipEqImm? || i.SkipNeImm? || i.LoadImm? || i.AddImm? || i.Random?
    ensures Decode(Encode(i)) == i
  {
    var f := if i.SkipEqImm? then 0x3 else if i.SkipNeImm? then 0x4 else if i.LoadImm? then 0x6
      else if i.AddImm? then 0x7 else 0xC;
    WordFields(f, i.x, i.kk / 0x10, i.kk % 0x10);
  }

  /** `Decode` takes `8xyn` to the arithmetic group with the word's own fields. */
  lemma {:induction false} DecodeArithmeticWord(x: nibble, y: nibble, n: nibble)
    ensures Decode(Word(0x8, x, y, n)) == DecodeArithmetic(Word(0x8, x, y, n), x, y, n)
  {
    WordFields(0x8, x, y, n);
  }

  /** `Decode` takes `Fxkk` to the miscellaneous group with the word's own fields. */
  lemma {:induction false} DecodeMiscWord(x: nibble, y: nibble, n: nibble)
    ensures Decode(Word(0xF, x, y, n)) == DecodeMisc(Word(0xF, x, y, n), x, y * 0x10 + n)
  {
    WordFields(0xF, x, y, n);
  }

  lemma {:induction false} DecodeEncodeArithmetic(i: Instr)
    requires i.Move? || i.Or? || i.And? || i.Xor? || i.AddReg? || i.SubReg? || i.ShiftRight?
      || i.SubNeg? || i.ShiftLeft?
    ensures Decode(Encode(i)) == i
  {
    match i
    case Move(x, y) => DecodeArithmeticWord(x, y, 0x0);
    case Or(x, y) => DecodeArithmeticWord(x, y, 0x1);
    case And(x, y) => DecodeArithmeticWord(x, y, 0x2);
    case Xor(x, y) => DecodeArithmeticWord(x, y, 0x3);
    case AddReg(x, y) => DecodeArithmeticWord(x, y, 0x4);
    case SubReg(x, y) => DecodeArithmeticWord(x, y, 0x5);
    case ShiftRight(x, y) => DecodeArithmeticWord(x, y, 0x6);
    case SubNeg(x, y) => DecodeArithmeticWord(x, y, 0x7);
    case ShiftLeft(x, y) => DecodeArithmeticWord(x, y, 0xE);
  }

  lemma {:induction false} DecodeEncodeMisc(i: Instr)
    requires i.ReadDelay? || i.WaitKey? || i.SetDelay? || i.SetSound? || i.AddIndex?
    ensures Decode(Encode(i)) == i
  {
    match i
    case ReadDelay(x) => DecodeMiscWord(x, 0x0, 0x7);
    case WaitKey(x) => DecodeMiscWord(x, 0x0, 0xA);
    case SetDelay(x) => DecodeMiscWord(x, 0x1, 0x5);
    case SetSound(x) => DecodeMiscWord(x, 0x1, 0x8);
    case AddIndex(x) => DecodeMiscWord(x, 0x1, 0xE);
  }

  lemma {:induction false} DecodeEncodeMemory(i: Instr)
    requires i.FontChar? || i.StoreBcd? || i.StoreRegs? || i.LoadRegs?
    ensures Decode(Encode(i)) == i
  {
    match i
    case FontChar(x) => DecodeMiscWord(x, 0x2, 0x9);
    case StoreBcd(x) => DecodeMiscWord(x, 0x3, 0x3);
    case StoreRegs(x) => DecodeMiscWord(x, 0x5, 0x5);
    case LoadRegs(x) => DecodeMiscWord(x, 0x6, 0x5);
  }

  /** An `8xyn` word decodes to an instruction whose encoding is that word. */
  lemma {:induction false} EncodeDecodeArithmetic(op: word)
    requires Family(op) == 0x8
    ensures Encode(Decode(op)) == op
  {
    WordOfFields(op);
    assert Decode(op) == DecodeArithmetic(op, X(op), Y(op), N(op));
  }

  /** An `Fxkk` word decodes to an instruction whose encoding is that word. */
  lemma {:induction false} EncodeDecodeMisc(op: word)
    requires Family(op) == 0xF
    ensures Encode(Decode(op)) == op
  {
    WordOfFields(op);
    assert KK(op) / 0x10 == Y(op) && KK(op) % 0x10 == N(op);
    assert Decode(op) == DecodeMisc(op, X(op), KK(op));
  }

  /** An `Exkk` word decodes to an instruction whose encoding is that word. */
  lemma {:induction false} EncodeDecodeKey(op: word)
    requires Family(op) == 0xE
    ensures Encode(Decode(op)) == op
  {
    WordOfFields(op);
    assert KK(op) / 0x10 == Y(op) && KK(op) % 0x10 == N(op);
    assert Decode(op) == DecodeKey(op, X(op), KK(op));
  }

  /** A word of the `fnnn` families decodes to an instruction whose encoding is that word. */
  lemma {:induction false} EncodeDecodeAddress(op: word)
    requires Family(op) in {0x1, 0x2, 0xA, 0xB}
    ensures Encode(Decode(op)) == op
  {
    WordOfFields(op);
    assert op == Family(op) * 0x1000 + NNN(op);
  }

  /** A word of the `fxkk` families decodes to an instruction whose encoding is that word. */
  lemma {:induction false} EncodeDecodeImmediate(op: word)
    requires Family(op) in {0x3, 0x4, 0x6, 0x7, 0xC}
    ensures Encode(Decode(op)) == op
  {
    WordOfFields(op);
    assert KK(op) / 0x10 == Y(op) && KK(op) % 0x10 == N(op);
  }

  /** A word of the `fxyn` families decodes to an instruction whose encoding is that word. */
  lemma {:induction false} EncodeDecodeRegisters(op: word)
    requires Family(op) in {0x5, 0x9, 0xD}
    ensures Encode(Decode(op)) == op
  {
    WordOfFields(op);
  }

  /** Every word decodes to a well-formed instruction whose encoding is that word: no opcode bit is dropped. */
  lemma {:induction false} EncodeDecode(op: word)
    ensures WellFormed(Decode(op))
    ensures Encode(Decode(op)) == op
  {
    var f := Family(op);
    if f == 0x0 {
      assert Decode(op) == if op == 0x00E0 then Cls else if op == 0x00EE then Ret else Unmapped(op);
    } else if f in {0x1, 0x2, 0xA, 0xB} {
      EncodeDecodeAddress(op);
    } else if f in {0x3, 0x4, 0x6, 0x7, 0xC} {
      EncodeDecodeImmediate(op);
    } else if f in {0x5, 0x9, 0xD} {
      EncodeDecodeRegisters(op);
    } else if f == 0x8 {
      EncodeDecodeArithmetic(op);
    } else if f == 0xE {
      EncodeDecodeKey(op);
    } else {
      EncodeDecodeMisc(op);
    }
  }
}

=== FILE: properties.dfy ===
/**
  What one instruction, or a pair of instructions, does to the machine, stated
  against the machine's own vocabulary rather than against `Execute`'s body.
 */
module Properties {
  import opened Bytes
  import opened State
  import opened Opcodes
  import opened Sprite
  import opened Interpreter

  /** The condition under which a skip instruction steps over the next instruction. */
  predicate SkipTaken(m: Machine, i: Instr)
    requires Valid(m) && IsSkip(i)
  {
    match i
    case SkipEqImm(x, kk) => m.v[x] == kk
    case SkipNeImm(x, kk) => m.v[x] != kk
    case SkipEqReg(x, y, _) => m.v[x] == m.v[y]
    case SkipNeReg(x, y, _) => m.v[x] != m.v[y]
    case SkipKey(x) => m.v[x] < KeyCount && m.keys[m.v[x]]
    case SkipNoKey(x) => m.v[x] < KeyCount && !m.keys[m.v[x]]
  }

  // ---------------------------------------------------------------- pc

  /** Every instruction that is neither a jump, a call, a return, a skip nor the key wait advances pc by 2. */
  lemma SequentialAdvance(m: Machine, i: Instr, rnd: byte)
    requires Ready(m) && !IsFlow(i)
    ensures Execute(m, i, rnd).Ok? ==> Execute(m, i, rnd).next.pc == m.pc + 2
  {
  }

  /**
    A skip changes only pc: by 4 when its condition holds, by 2 otherwise. The
    key skips fail instead when V[x] names no key.
   */
  lemma SkipAdvance(m: Machine, i: Instr, rnd: byte)
    requires Ready(m) && IsSkip(i)
    ensures Execute(m, i, rnd).Err? <==> (i.SkipKey? || i.SkipNoKey?) && m.v[i.x] >= KeyCount
    ensures Execute(m, i, rnd).Ok? ==>
      Execute(m, i, rnd).next == m.(pc := if SkipTaken(m, i) then m.pc + 4 else m.pc + 2)
  {
  }

  /** Jumps set pc to the target (plus V0 for Bnnn) and change nothing else. */
  lemma JumpTargets(m: Machine, a: addr, rnd: byte)
    requires Ready(m)
    ensures Execute(m, Jump(a), rnd) == Ok(m.(pc := a))
    ensures Execute(m, JumpOffset(a), rnd) == Ok(m.(pc := a + m.v[0]))
  {
  }

  // ---------------------------------------------------------------- stack

  /** CALL fails exactly on a full stack and RET exactly on an empty one. */
  lemma StackFaults(m: Machine, a: addr, rnd: byte)
    requires Ready(m)
    ensures Execute(m, Call(a), rnd) == Err(StackOverflow) <==> m.sp == StackDepth
    ensures Execute(m, Call(a), rnd).Ok? <==> m.sp < StackDepth
    ensures Execute(m, Ret, rnd) == Err(StackUnderflow) <==> m.sp == 0
    ensures Execute(m, Ret, rnd).Ok? <==> m.sp > 0
  {
  }

  /**
    2nnn pushes the address of the CALL itself, not the next instruction, and
    jumps to nnn; nothing else changes.
   */
  lemma CallPushes(m: Machine, a: addr, rnd: byte)
    requires Ready(m) && m.sp < StackDepth
    ensures Execute(m, Call(a), rnd) == Ok(m.(stack := m.stack[m.sp := m.pc], sp := m.sp + 1, pc := a))
  {
  }

  /**
    00EE pops the top return address and resumes two bytes after it, wrapping
    as the 16-bit pc does; the popped slot keeps its value and nothing else
    changes.
   */
  lemma RetPops(m: Machine, rnd: byte)
    requires Ready(m) && m.sp > 0
    ensures Execute(m, Ret, rnd) == Ok(m.(sp := m.sp - 1, pc := (m.stack[m.sp - 1] as int + 2) % 0x1_0000))
  {
  }

  /**
    A CALL followed by a RET at the callee's address comes back to the
    instruction after the CALL with the stack pointer restored; the only trace
    left is the return address in the popped stack slot.
   */
  lemma CallThenReturn(m: Machine, a: addr, rnd1: byte, rnd2: byte)
    requires Ready(m) && m.sp < StackDepth && a + 1 < MemorySize
    ensures Execute(m, Call(a), rnd1).Ok?
    ensures var m1 := Execute(m, Call(a), rnd1).next;
      && m1.pc == a && m1.sp == m.sp + 1
      && Execute(m1, Ret, rnd2) == Ok(m.(pc := m.pc + 2, stack := m.stack[m.sp := m.pc]))
  {
  }

  // ---------------------------------------------------------------- arithmetic

  /** 6xkk loads kk into V[x] and 8xy0 copies V[y] into it; nothing else but pc changes. */
  lemma LoadsAndMoves(m: Machine, x: nibble, y: nibble, kk: byte, rnd: byte)
    requires Ready(m)
    ensures Execute(m, LoadImm(x, kk), rnd) == Ok(m.(pc := m.pc + 2, v := m.v[x := kk]))
    ensures Execute(m, Move(x, y), rnd) == Ok(m.(pc := m.pc + 2, v := m.v[x := m.v[y]]))
  {
  }

  /**
    8xy1 sets exactly the bits of V[x] that are set in V[x] or in V[y], so it
    loses no bit of either operand; VF and the other registers are untouched.
   */
  lemma OrKeepsBits(m: Machine, x: nibble, y: nibble, rnd: byte)
    requires Ready(m)
    ensures var r := Execute(m, Or(x, y), rnd);
      && r.Ok?
      && (forall j :: 0 <= j < 8 ==> Bit(r.next.v[x], j) == (Bit(m.v[x], j) || Bit(m.v[y], j)))
      && BitAnd(r.next.v[x], m.v[x]) == m.v[x]
      && BitAnd(r.next.v[x], m.v[y]) == m.v[y]
      && (forall i :: 0 <= i < RegisterCount && i != x ==> r.next.v[i] == m.v[i])
      && r.next == m.(pc := m.pc + 2, v := r.next.v)
  {
    BitOrCovers(m.v[x], m.v[y]);
    BitOrBits(m.v[x], m.v[y]);
  }

  /**
    8xy2 keeps exactly the bits of V[x] that are also set in V[y], so the
    result is no larger than either operand; VF and the other registers are
    untouched.
   */
  lemma AndMasks(m: Machine, x: nibble, y: nibble, rnd: byte)
    requires Ready(m)
    ensures var r := Execute(m, And(x, y), rnd);
      && r.Ok?
      && (forall j :: 0 <= j < 8 ==> Bit(r.next.v[x], j) == (Bit(m.v[x], j) && Bit(m.v[y], j)))
      && r.next.v[x] <= m.v[x] && r.next.v[x] <= m.v[y]
      && BitAnd(r.next.v[x], m.v[y]) == r.next.v[x]
      && (forall i :: 0 <= i < RegisterCount && i != x ==> r.next.v[i] == m.v[i])
      && r.next == m.(pc := m.pc + 2, v := r.next.v)
  {
    BitAndIdempotent(m.v[x], m.v[y]);
    BitAndBits(m.v[x], m.v[y]);
  }

  /**
    8xy3 sets exactly the bits in which V[x] and V[y] differ; VF and the other
    registers are untouched.
   */
  lemma XorFlipsBits(m: Machine, x: nibble, y: nibble, rnd: byte)
    requires Ready(m)
    ensures var r := Execute(m, Xor(x, y), rnd);
      && r.Ok?
      && (forall j :: 0 <= j < 8 ==> Bit(r.next.v[x], j) == (Bit(m.v[x], j) != Bit(m.v[y], j)))
      && (r.next.v[x] == 0 <==> m.v[x] == m.v[y])
      && (forall i :: 0 <= i < RegisterCount && i != x ==> r.next.v[i] == m.v[i])
      && r.next == m.(pc := m.pc + 2, v := r.next.v)
  {
    BitXorBits(m.v[x], m.v[y]);
  }

  /** 7xkk adds modulo 256 without touching VF or any other register. */
  lemma AddImmWraps(m: Machine, x: nibble, kk: byte, rnd: byte)
    requires Ready(m)
    ensures var r := Execute(m, AddImm(x, kk), rnd);
      && r.Ok?
      && r.next.v[x] == (m.v[x] as int + kk) % 0x100
      && (forall i :: 0 <= i < RegisterCount && i != x ==> r.next.v[i] == m.v[i])
      && r.next == m.(pc := m.pc + 2, v := r.next.v)
  {
  }

  /** 8xy4 on ordinary registers: VF is the carry out and V[x] the low byte of the exact sum. */
  lemma AddRegCarry(m: Machine, x: nibble, y: nibble, rnd: byte)
    requires Ready(m) && x != Flag && y != Flag
    ensures var r := Execute(m, AddReg(x, y), rnd);
      && r.Ok?
      && r.next.v[Flag] <= 1
      && (r.next.v[Flag] == 1 <==> m.v[x] as int + m.v[y] > 0xFF)
      && r.next.v[x] as int + r.next.v[Flag] as int * 0x100 == m.v[x] as int + m.v[y]
      && (forall i :: 0 <= i < RegisterCount && i != x && i != Flag ==> r.next.v[i] == m.v[i])
      && r.next == m.(pc := m.pc + 2, v := r.next.v)
  {
  }

  /** 8xy5 on ordinary registers: VF is 1 iff V[x] > V[y] (strictly), and adding V[y] back gives V[x]. */
  lemma SubRegBorrow(m: Machine, x: nibble, y: nibble, rnd: byte)
    requires Ready(m) && x != Flag && y != Flag
    ensures var r := Execute(m, SubReg(x, y), rnd);
      && r.Ok?
      && r.next.v[Flag] <= 1
      && (r.next.v[Flag] == 1 <==> m.v[x] > m.v[y])
      && (r.next.v[x] as int + m.v[y]) % 0x100 == m.v[x]
      && (forall i :: 0 <= i < RegisterCount && i != x && i != Flag ==> r.next.v[i] == m.v[i])
      && r.next == m.(pc := m.pc + 2, v := r.next.v)
  {
  }

  /** 8xy7 on ordinary registers: VF is 1 iff V[y] > V[x], and V[x] + old V[x] is V[y] modulo 256. */
  lemma SubNegBorrow(m: Machine, x: nibble, y: nibble, rnd: byte)
    requires Ready(m) && x != Flag && y != Flag
    ensures var r := Execute(m, SubNeg(x, y), rnd);
      && r.Ok?
      && r.next.v[Flag] <= 1
      && (r.next.v[Flag] == 1 <==> m.v[y] > m.v[x])
      && (r.next.v[x] as int + m.v[x]) % 0x100 == m.v[y]
      && (forall i :: 0 <= i < RegisterCount && i != x && i != Flag ==> r.next.v[i] == m.v[i])
      && r.next == m.(pc := m.pc + 2, v := r.next.v)
  {
  }

  /** 8xy6 on an ordinary register: the shifted value and VF together recompose the old V[x]. */
  lemma ShiftRightBit(m: Machine, x: nibble, y: nibble, rnd: byte)
    requires Ready(m) && x != Flag
    ensures var r := Execute(m, ShiftRight(x, y), rnd);
      && r.Ok?
      && r.next.v[Flag] <= 1
      && r.next.v[x] * 2 + r.next.v[Flag] == m.v[x]
      && (forall i :: 0 <= i < RegisterCount && i != x && i != Flag ==> r.next.v[i] == m.v[i])
      && r.next == m.(pc := m.pc + 2, v := r.next.v)
  {
  }

  /** 8Fy6 shifts out the very bit it just stored, so VF ends as 0. */
  lemma ShiftRightFlag(m: Machine, y: nibble, rnd: byte)
    requires Ready(m)
    ensures Execute(m, ShiftRight(Flag, y), rnd) == Ok(m.(pc := m.pc + 2, v := m.v[Flag := 0]))
  {
  }

  /** Shifting a byte left twice, truncating each time, is multiplying it by four modulo 256. */
  lemma ShiftTwice(a: byte)
    ensures ((a as int * 2) % 0x100) * 2 % 0x100 == (a as int * 4) % 0x100
  {
    var d := if a < 0x80 then a as int * 2 else a as int * 2 - 0x100;
    assert (a as int * 2) % 0x100 == d;
    assert d * 2 == a as int * 4 - (if a < 0x80 then 0 else 0x200);
  }

  /**
    8xyE as written: VF receives the old top bit of V[x], and V[x] ends up as
    V[y] shifted left, except that for x == y the source's first shift is
    shifted again, giving V[x] * 4 modulo 256.
   */
  lemma ShiftLeftAsWritten(m: Machine, x: nibble, y: nibble, rnd: byte)
    requires Ready(m) && x != Flag && y != Flag
    ensures var r := Execute(m, ShiftLeft(x, y), rnd);
      && r.Ok?
      && r.next.v[Flag] == m.v[x] / 0x80
      && r.next.v[x] == (if x == y then m.v[x] as int * 4 else m.v[y] as int * 2) % 0x100
      && (forall i :: 0 <= i < RegisterCount && i != x && i != Flag ==> r.next.v[i] == m.v[i])
      && r.next == m.(pc := m.pc + 2, v := r.next.v)
  {
    var v1 := m.v[Flag := m.v[x] / 0x80];
    var v2 := v1[x := (v1[x] as int * 2) % 0x100];
    assert Execute(m, ShiftLeft(x, y), rnd) == Ok(m.(pc := m.pc + 2, v := v2[x := (v2[y] as int * 2) % 0x100]));
    if x == y {
      assert v2[y] == (m.v[x] as int * 2) % 0x100;
      ShiftTwice(m.v[x]);
    } else {
      assert v2[y] == m.v[y];
    }
  }

  /**
    Because VF is written before V[x], 8Fy4 loses its carry: VF ends as the
    carry plus V[y]. And 8xF4 adds the fresh carry, not the old VF, to V[x].
   */
  lemma AddRegFlagOperand(m: Machine, z: nibble, rnd: byte)
    requires Ready(m) && z != Flag
    ensures var carry := if m.v[Flag] as int + m.v[z] > 0xFF then 1 else 0;
      Execute(m, AddReg(Flag, z), rnd).next.v[Flag] == (carry + m.v[z] as int) % 0x100
    ensures var carry := if m.v[z] as int + m.v[Flag] > 0xFF then 1 else 0;
      && Execute(m, AddReg(z, Flag), rnd).next.v[z] == (m.v[z] as int + carry) % 0x100
      && Execute(m, AddReg(z, Flag), rnd).next.v[Flag] == carry
  {
  }

  /**
    8FF4 and 8FF5, with VF as both operands: 8FF4 doubles its own fresh
    carry, leaving 2 or 0, and 8FF5 leaves 0. No other register changes.
   */
  lemma FlagOnlyOperands(m: Machine, rnd: byte)
    requires Ready(m)
    ensures var r := Execute(m, AddReg(Flag, Flag), rnd);
      && r.Ok?
      && r.next.v[Flag] == (if m.v[Flag] as int * 2 > 0xFF then 2 else 0)
      && r.next == m.(pc := m.pc + 2, v := m.v[Flag := r.next.v[Flag]])
    ensures Execute(m, SubReg(Flag, Flag), rnd) == Ok(m.(pc := m.pc + 2, v := m.v[Flag := 0]))
  {
  }

  /**
    The same ordering for 8xy5: 8Fy5 subtracts V[y] from the fresh no-borrow
    flag, and 8xF5 subtracts the fresh flag, not the old VF, from V[x].
   */
  lemma SubRegFlagOperand(m: Machine, z: nibble, rnd: byte)
    requires Ready(m) && z != Flag
    ensures var flag := if m.v[Flag] > m.v[z] then 1 else 0;
      Execute(m, SubReg(Flag, z), rnd).next.v[Flag] == (flag - m.v[z] as int) % 0x100
    ensures var flag := if m.v[z] > m.v[Flag] then 1 else 0;
      && Execute(m, SubReg(z, Flag), rnd).next.v[z] == (m.v[z] as int - flag) % 0x100
      && Execute(m, SubReg(z, Flag), rnd).next.v[Flag] == flag
  {
  }

  /** 8xy3 applied twice with x != y gives every register back. */
  lemma XorTwiceRestores(m: Machine, x: nibble, y: nibble, rnd1: byte, rnd2: byte)
    requires Ready(m) && m.pc + 3 < MemorySize && x != y
    ensures var m1 := Execute(m, Xor(x, y), rnd1).next;
      Execute(m1, Xor(x, y), rnd2).next.v == m.v
  {
    var m1 := Execute(m, Xor(x, y), rnd1).next;
    BitXorInvolution(m.v[x], m.v[y]);
    assert Execute(m1, Xor(x, y), rnd2).next.v == m.v;
  }

  /**
    Cxkk stores the random byte with every bit outside kk cleared and every bit
    inside kk kept, so the stored byte has no bit outside the mask and every
    such byte is produced by some random input.
   */
  lemma RandomMasked(m: Machine, x: nibble, kk: byte, rnd: byte)
    requires Ready(m)
    ensures var r := Execute(m, Random(x, kk), rnd);
      && r.Ok?
      && (forall j :: 0 <= j < 8 ==> Bit(r.next.v[x], j) == (Bit(rnd, j) && Bit(kk, j)))
      && r.next.v[x] <= kk
      && BitAnd(r.next.v[x], kk) == r.next.v[x]
      && (forall i :: 0 <= i < RegisterCount && i != x ==> r.next.v[i] == m.v[i])
      && r.next == m.(pc := m.pc + 2, v := r.next.v)
    ensures BitAnd(rnd, kk) == rnd ==> Execute(m, Random(x, kk), rnd).next.v[x] == rnd
  {
    BitAndIdempotent(rnd, kk);
    BitAndBits(rnd, kk);
  }

  /** The random byte is consumed by Cxkk alone: every other instruction ignores it. */
  lemma OnlyRandomIsRandom(m: Machine, i: Instr, rnd1: byte, rnd2: byte)
    requires Ready(m) && !i.Random?
    ensures Execute(m, i, rnd1) == Execute(m, i, rnd2)
  {
  }

  // ---------------------------------------------------------------- timers

  /** Only Fx15 and Fx18 write the timers; no other instruction counts them down. */
  lemma InstructionsKeepTimers(m: Machine, i: Instr, rnd: byte)
    requires Ready(m) && !i.SetDelay? && !i.SetSound?
    ensures Execute(m, i, rnd).Ok? ==>
      Execute(m, i, rnd).next.delayTimer == m.delayTimer && Execute(m, i, rnd).next.soundTimer == m.soundTimer
  {
    if IsSkip(i) {
      assert Execute(m, i, rnd) == ExecuteSkip(m, i);
    } else if IsFlow(i) {
      assert Execute(m, i, rnd) == ExecuteFlow(m, i);
    } else if IsRegisterOp(i) {
      assert Execute(m, i, rnd) == ExecuteRegisterOp(m, i);
    } else if IsArithmetic(i) {
      assert Execute(m, i, rnd) == ExecuteArithmetic(m, i, rnd);
    }
  }

  /** Fx07 reads the delay timer; Fx15 and Fx18 load the timers from V[x]. */
  lemma TimerTransfers(m: Machine, x: nibble, rnd: byte)
    requires Ready(m)
    ensures Execute(m, ReadDelay(x), rnd) == Ok(m.(pc := m.pc + 2, v := m.v[x := m.delayTimer]))
    ensures Execute(m, SetDelay(x), rnd) == Ok(m.(pc := m.pc + 2, delayTimer := m.v[x]))
    ensures Execute(m, SetSound(x), rnd) == Ok(m.(pc := m.pc + 2, soundTimer := m.v[x]))
  {
  }

  // ---------------------------------------------------------------- keys

  /**
    Fx0A with no key held changes nothing, pc included; otherwise it stores the
    lowest held key in V[x] and moves on.
   */
  lemma WaitKeyBehaviour(m: Machine, x: nibble, rnd: byte)
    requires Ready(m)
    ensures (forall k :: 0 <= k < KeyCount ==> !m.keys[k]) ==> Execute(m, WaitKey(x), rnd) == Ok(m)
    ensures forall k :: 0 <= k < KeyCount && m.keys[k] && (forall j :: 0 <= j < k ==> !m.keys[j]) ==>
      Execute(m, WaitKey(x), rnd) == Ok(m.(pc := m.pc + 2, v := m.v[x := k]))
  {
  }

  /** Waiting with no key held stalls; once key `k` is pressed, the next Fx0A stores `k` and advances. */
  lemma WaitThenPress(m: Machine, x: nibble, k: nat, rnd: byte)
    requires Ready(m) && k < KeyCount
    requires forall j :: 0 <= j < KeyCount ==> !m.keys[j]
    ensures Execute(m, WaitKey(x), rnd) == Ok(m)
    ensures var r := Execute(PressKey(m, k), WaitKey(x), rnd);
      r.Ok? && r.next.v[x] == k && r.next.pc == m.pc + 2
  {
    var pressed := PressKey(m, k);
    assert forall j :: 0 <= j < k ==> !pressed.keys[j];
    WaitKeyBehaviour(pressed, x, rnd);
  }

  // ---------------------------------------------------------------- screen

  /** 00E0 blanks every pixel and raises the draw flag. */
  lemma ClsClears(m: Machine, rnd: byte)
    requires Ready(m)
    ensures var r := Execute(m, Cls, rnd);
      && r.Ok?
      && (forall p :: 0 <= p < PixelCount ==> GetPixelData(r.next, p) == 0)
      && GetDrawFlag(r.next)
      && r.next == m.(pc := m.pc + 2, gfx := r.next.gfx, drawFlag := true)
  {
  }

  /**
    Dxyn with VF neither the column nor the row register: it fails only when
    the sprite runs past memory; otherwise it flips exactly the cells the set
    sprite bits hit, sets VF to 1 iff one of them was lit, raises the draw flag
    and leaves memory, I and the other registers alone.
   */
  lemma DrawSemantics(m: Machine, x: nibble, y: nibble, n: nibble, rnd: byte)
    requires Ready(m) && x != Flag && y != Flag
    ensures Execute(m, Draw(x, y, n), rnd).Ok? <==> n == 0 || m.index + n <= MemorySize
    ensures var r := Execute(m, Draw(x, y, n), rnd);
      r.Ok? ==>
        && (forall p :: 0 <= p < PixelCount ==>
              r.next.gfx[p] == (m.gfx[p] != Painted(SpriteRows(m, n), m.v[x], m.v[y], 0, p)))
        && r.next.v[Flag] <= 1
        && (r.next.v[Flag] == 1 <==> Collides(SpriteRows(m, n), m.v[x], m.v[y], 0, m.gfx))
        && (forall i :: 0 <= i < RegisterCount && i != Flag ==> r.next.v[i] == m.v[i])
        && r.next == m.(pc := m.pc + 2, drawFlag := true, gfx := r.next.gfx, v := r.next.v)
  {
    if n == 0 || m.index + n <= MemorySize {
      DrawFlips(SpriteRows(m, n), x, y, 0, m.gfx, m.v[Flag := 0]);
      DrawCollision(SpriteRows(m, n), x, y, 0, m.gfx, m.v[Flag := 0]);
    }
  }

  /** Drawing the same sprite twice in a row, with VF neither coordinate register, restores the screen. */
  lemma DrawTwiceErases(m: Machine, x: nibble, y: nibble, n: nibble, rnd1: byte, rnd2: byte)
    requires Ready(m) && m.pc + 3 < MemorySize && x != Flag && y != Flag
    requires n == 0 || m.index + n <= MemorySize
    ensures Execute(m, Draw(x, y, n), rnd1).Ok?
    ensures var m1 := Execute(m, Draw(x, y, n), rnd1).next;
      Execute(m1, Draw(x, y, n), rnd2).Ok? && Execute(m1, Draw(x, y, n), rnd2).next.gfx == m.gfx
  {
    var m1 := Execute(m, Draw(x, y, n), rnd1).next;
    assert SpriteRows(m1, n) == SpriteRows(m, n);
    DrawTwiceRestores(SpriteRows(m, n), x, y, m.gfx, m.v);
  }

  /** The top four bits of 0xF0 are set and the bottom four clear. */
  lemma HalfRowBits(j: nat)
    requires j < 8
    ensures MsbBit(0xF0, j) <==> j < 4
  {
    if j == 0 {} else if j == 1 {} else if j == 2 {} else if j == 3 {}
    else if j == 4 {} else if j == 5 {} else if j == 6 {} else {}
  }

  /** The one-row sprite 0xF0 drawn at (0, 0) hits exactly cells 0-3. */
  lemma HalfRowPainted()
    ensures forall p :: 0 <= p < PixelCount ==> (Painted([0xF0], 0, 0, 0, p) <==> p < 4)
  {
    var rows: seq<byte> := [0xF0];
    forall p | 0 <= p < PixelCount
      ensures Painted(rows, 0, 0, 0, p) <==> p < 4
    {
      if p < 4 {
        HalfRowBits(p);
        assert Lit(rows, p) && Target(0, 0, p) == p;
      } else {
        forall j | 0 <= j < 8 * |rows| && Lit(rows, j)
          ensures Target(0, 0, j) != p
        {
          HalfRowBits(j);
        }
      }
    }
  }

  /**
    The one-row sprite 0xF0 drawn at (0, 0) on a blank screen lights pixels
    0-3 of the top row with VF = 0; drawing it again blanks them with VF = 1.
   */
  lemma DrawHalfRowTwice(m: Machine, x: nibble, y: nibble, rnd: byte)
    requires Ready(m) && m.pc + 3 < MemorySize && x != Flag && y != Flag
    requires m.v[x] == 0 && m.v[y] == 0 && m.index < MemorySize && m.memory[m.index] == 0xF0
    requires forall p :: 0 <= p < PixelCount ==> !m.gfx[p]
    ensures var r1 := Execute(m, Draw(x, y, 1), rnd);
      && r1.Ok?
      && (forall p :: 0 <= p < PixelCount ==> (r1.next.gfx[p] <==> p < 4))
      && r1.next.v[Flag] == 0
      && var r2 := Execute(r1.next, Draw(x, y, 1), rnd);
        && r2.Ok?
        && (forall p :: 0 <= p < PixelCount ==> !r2.next.gfx[p])
        && r2.next.v[Flag] == 1
  {
    var rows := SpriteRows(m, 1);
    assert rows == [0xF0];
    HalfRowPainted();
    DrawSemantics(m, x, y, 1, rnd);
    var m1 := Execute(m, Draw(x, y, 1), rnd).next;
    assert SpriteRows(m1, 1) == rows;
    DrawSemantics(m1, x, y, 1, rnd);
    HalfRowBits(0);
    assert Lit(rows, 0) && m1.gfx[Target(0, 0, 0)];
  }

  // ---------------------------------------------------------------- index and memory

  /** Annn points I at nnn and changes nothing else but pc. */
  lemma LoadIndexSets(m: Machine, a: addr, rnd: byte)
    requires Ready(m)
    ensures Execute(m, LoadIndex(a), rnd) == Ok(m.(pc := m.pc + 2, index := a))
  {
  }

  /**
    Fx1E with x != F sets VF to 1 iff I + V[x] leaves the 12-bit address space
    and adds V[x] to I modulo 2^16. With x == F, VF is written first and I grows
    by the new flag instead.
   */
  lemma AddIndexOverflow(m: Machine, x: nibble, rnd: byte)
    requires Ready(m)
    ensures var r := Execute(m, AddIndex(x), rnd);
      && r.Ok?
      && r.next.v[Flag] <= 1
      && (r.next.v[Flag] == 1 <==> m.index + m.v[x] > 0xFFF)
      && r.next.index == (m.index + (if x == Flag then r.next.v[Flag] else m.v[x])) % 0x1_0000
      && (forall i :: 0 <= i < RegisterCount && i != Flag ==> r.next.v[i] == m.v[i])
      && r.next == m.(pc := m.pc + 2, index := r.next.index, v := r.next.v)
  {
  }

  /**
    Fx29 sets I to 5 * V[x] for every V[x] and changes nothing else but pc;
    with the font resident and V[x] a digit, that is the address of the five
    rows of the digit's glyph.
   */
  lemma FontCharGlyph(m: Machine, x: nibble, rnd: byte)
    requires Ready(m)
    ensures Execute(m, FontChar(x), rnd) == Ok(m.(pc := m.pc + 2, index := 5 * (m.v[x] as int)))
    ensures m.memory[..|FontSet|] == FontSet && m.v[x] < 16 ==>
      var i := Execute(m, FontChar(x), rnd).next.index;
      Execute(m, FontChar(x), rnd).next.memory[i .. i + 5] == Glyph(m.v[x])
  {
    var d := m.v[x];
    if m.memory[..|FontSet|] == FontSet && d < 16 {
      assert m.memory[5 * d .. 5 * d + 5] == m.memory[..|FontSet|][5 * d .. 5 * d + 5];
    }
  }

  /**
    Fx33 writes the decimal digits of V[x], hundreds first, to I .. I+2 and
    changes no other cell; it fails when I + 2 is past memory.
   */
  lemma BcdDigits(m: Machine, x: nibble, rnd: byte)
    requires Ready(m)
    ensures Execute(m, StoreBcd(x), rnd).Ok? <==> m.index + 2 < MemorySize
    ensures var r := Execute(m, StoreBcd(x), rnd);
      r.Ok? ==>
        var d0, d1, d2 := r.next.memory[m.index], r.next.memory[m.index + 1], r.next.memory[m.index + 2];
        && d0 < 10 && d1 < 10 && d2 < 10
        && 100 * d0 + 10 * d1 + d2 == m.v[x]
        && (forall a :: 0 <= a < MemorySize && !(m.index <= a <= m.index + 2) ==> r.next.memory[a] == m.memory[a])
        && r.next == m.(pc := m.pc + 2, memory := r.next.memory)
  {
    var vx := m.v[x];
    assert vx == 100 * (vx / 100) + 10 * ((vx / 10) % 10) + vx % 10 by {
      assert vx == 10 * (vx / 10) + vx % 10;
      assert vx / 10 == 10 * (vx / 100) + (vx / 10) % 10;
    }
  }

  /** Fx55 writes V0 .. V[x] to I .. I+x and no other cell; it fails when I + x is past memory. */
  lemma StoreRegsFrame(m: Machine, x: nibble, rnd: byte)
    requires Ready(m)
    ensures Execute(m, StoreRegs(x), rnd).Ok? <==> m.index + x < MemorySize
    ensures var r := Execute(m, StoreRegs(x), rnd);
      r.Ok? ==>
        && (forall i :: 0 <= i <= x ==> r.next.memory[m.index + i] == m.v[i])
        && (forall a :: 0 <= a < MemorySize && !(m.index <= a <= m.index + x) ==> r.next.memory[a] == m.memory[a])
        && r.next == m.(pc := m.pc + 2, memory := r.next.memory)
  {
  }

  /** Fx65 reads V0 .. V[x] from I .. I+x and leaves the other registers; it fails when I + x is past memory. */
  lemma LoadRegsFrame(m: Machine, x: nibble, rnd: byte)
    requires Ready(m)
    ensures Execute(m, LoadRegs(x), rnd).Ok? <==> m.index + x < MemorySize
    ensures var r := Execute(m, LoadRegs(x), rnd);
      r.Ok? ==>
        && (forall i :: 0 <= i <= x ==> r.next.v[i] == m.memory[m.index + i])
        && (forall i :: x < i < RegisterCount ==> r.next.v[i] == m.v[i])
        && r.next == m.(pc := m.pc + 2, v := r.next.v)
  {
  }

  /** Fx55 followed by Fx65 with the same I and x gives back every register. */
  lemma StoreThenLoad(m: Machine, x: nibble, rnd1: byte, rnd2: byte)
    requires Ready(m) && m.pc + 3 < MemorySize && m.index + x < MemorySize
    ensures Execute(m, StoreRegs(x), rnd1).Ok?
    ensures var m1 := Execute(m, StoreRegs(x), rnd1).next;
      var r := Execute(m1, LoadRegs(x), rnd2);
      r.Ok? && r.next.v == m.v && r.next.memory == m1.memory && r.next.pc == m.pc + 4
  {
    var m1 := Execute(m, StoreRegs(x), rnd1).next;
    StoreRegsFrame(m, x, rnd1);
    LoadRegsFrame(m1, x, rnd2);
    var r := Execute(m1, LoadRegs(x), rnd2);
    assert r.next.v == m.v;
  }

  // ---------------------------------------------------------------- the cycle

  /**
    A cycle runs the instruction whose encoding sits at pc: when the two bytes
    at pc spell out instruction `i`, the step is exactly `i`'s execution.
   */
  lemma StepRunsEncoded(m: Machine, i: Instr, rnd: byte)
    requires Ready(m) && WellFormed(i) && Fetch(m) == Encode(i)
    ensures Step(m, rnd) == Execute(m, i, rnd)
  {
    DecodeEncode(i);
  }

  /** The cycle reports an unmapped opcode exactly when the word at pc decodes to none of the instructions. */
  lemma StepUnmapped(m: Machine, rnd: byte)
    requires Ready(m)
    ensures Step(m, rnd) == Err(UnmappedOpcode(Fetch(m))) <==> Decode(Fetch(m)).Unmapped?
  {
    EncodeDecode(Fetch(m));
  }
}

=== FILE: sprite.dfy ===
/**
  The pixel loop of the Dxyn instruction: every set bit of an 8-pixel-wide
  sprite row toggles one framebuffer cell, found by wrapping the linear
  index modulo 2048, and VF records whether a toggled cell was already lit.
 */
module Sprite {
  import opened Bytes
  import opened State

  /**
    The framebuffer cell hit by pixel `j` of a sprite drawn at (`vx`, `vy`):
    pixel `j` is column `j % 8` of row `j / 8`.
   */
  function Target(vx: byte, vy: byte, j: nat): (p: nat)
    ensures p < PixelCount
  {
    (vx + j % 8 + (vy + j / 8) * ScreenWidth) % PixelCount
  }

  /** Pixel `j` of the sprite is set. */
  predicate Lit(rows: seq<byte>, j: nat)
    requires j < 8 * |rows|
  {
    MsbBit(rows[j / 8], j % 8)
  }

  /**
    Draws sprite pixels `k` onward, one at a time in row-major order. As in the
    source, V[x] and V[y] are read afresh for every pixel and VF is or-ed with
    each collision, so a sprite positioned by VF moves while it is drawn.
   */
  function DrawPixels(rows: seq<byte>, x: nibble, y: nibble, k: nat, gfx: seq<bool>, v: seq<byte>)
    : (r: (seq<bool>, seq<byte>))
    requires |gfx| == PixelCount && |v| == RegisterCount && k <= 8 * |rows|
    ensures |r.0| == PixelCount && |r.1| == RegisterCount
    ensures forall i :: 0 <= i < RegisterCount && i != Flag ==> r.1[i] == v[i]
    decreases 8 * |rows| - k
  {
    if k == 8 * |rows| then (gfx, v)
    else if Lit(rows, k) then
      var p := Target(v[x], v[y], k);
      var collision: byte := if gfx[p] then 1 else 0;
      DrawPixels(rows, x, y, k + 1, gfx[p := !gfx[p]], v[Flag := BitOr(v[Flag], collision)])
    else
      DrawPixels(rows, x, y, k + 1, gfx, v)
  }

  /** Cell `p` is hit by one of the set sprite pixels `k` onward. */
  ghost predicate Painted(rows: seq<byte>, vx: byte, vy: byte, k: nat, p: nat) {
    exists j :: k <= j < 8 * |rows| && Lit(rows, j) && Target(vx, vy, j) == p
  }

  /** One of the set sprite pixels `k` onward hits a cell already lit in `gfx`. */
  ghost predicate Collides(rows: seq<byte>, vx: byte, vy: byte, k: nat, gfx: seq<bool>)
    requires |gfx| == PixelCount
  {
    exists j :: k <= j < 8 * |rows| && Lit(rows, j) && gfx[Target(vx, vy, j)]
  }

  /** Two numbers less than the modulus apart have distinct remainders. */
  lemma ModDistinct(a: nat, b: nat)
    requires a < b < a + PixelCount
    ensures a % PixelCount != b % PixelCount
  {
    var q, r := a / PixelCount, a % PixelCount;
    var q', r' := b / PixelCount, b % PixelCount;
    assert a == q * PixelCount + r && b == q' * PixelCount + r';
  }

  /** Distinct pixels of a sprite of at most 32 rows land on distinct cells, however the index wraps. */
  lemma TargetsDistinct(vx: byte, vy: byte, j1: nat, j2: nat)
    requires j1 < j2 < 256
    ensures Target(vx, vy, j1) != Target(vx, vy, j2)
  {
    var base := vx + vy * ScreenWidth;
    var o1 := j1 % 8 + (j1 / 8) * ScreenWidth;
    var o2 := j2 % 8 + (j2 / 8) * ScreenWidth;
    assert o1 < o2 by {
      if j1 / 8 == j2 / 8 {
        assert j1 % 8 < j2 % 8;
      } else {
        assert j1 / 8 < j2 / 8;
      }
    }
    assert o2 < PixelCount;
    ModDistinct(base + o1, base + o2);
  }

  /**
    With VF neither the column nor the row register, drawing pixels `k` onward
    flips exactly the cells they hit.
   */
  lemma {:induction false} DrawFlips(rows: seq<byte>, x: nibble, y: nibble, k: nat, gfx: seq<bool>, v: seq<byte>)
    requires |gfx| == PixelCount && |v| == RegisterCount && k <= 8 * |rows| && |rows| <= 16
    requires x != Flag && y != Flag
    ensures forall p :: 0 <= p < PixelCount ==>
      DrawPixels(rows, x, y, k, gfx, v).0[p] == (gfx[p] != Painted(rows, v[x], v[y], k, p))
    decreases 8 * |rows| - k
  {
    var vx, vy := v[x], v[y];
    var r := DrawPixels(rows, x, y, k, gfx, v);
    if k == 8 * |rows| {
      return;
    }
    var p0 := Target(vx, vy, k);
    if Lit(rows, k) {
      var collision: byte := if gfx[p0] then 1 else 0;
      var gfx1 := gfx[p0 := !gfx[p0]];
      var v1 := v[Flag := BitOr(v[Flag], collision)];
      assert r == DrawPixels(rows, x, y, k + 1, gfx1, v1);
      DrawFlips(rows, x, y, k + 1, gfx1, v1);
      forall p | 0 <= p < PixelCount
        ensures r.0[p] == (gfx[p] != Painted(rows, vx, vy, k, p))
      {
        if p == p0 {
          assert Painted(rows, vx, vy, k, p0) by {
            assert Lit(rows, k) && Target(vx, vy, k) == p0;
          }
          forall j | k + 1 <= j < 8 * |rows|
            ensures Target(vx, vy, j) != p0
          {
            TargetsDistinct(vx, vy, k, j);
          }
        } else {
          assert Painted(rows, vx, vy, k, p) == Painted(rows, vx, vy, k + 1, p);
        }
      }
    } else {
      assert r == DrawPixels(rows, x, y, k + 1, gfx, v);
      DrawFlips(rows, x, y, k + 1, gfx, v);
      forall p | 0 <= p < PixelCount
        ensures Painted(rows, vx, vy, k, p) == Painted(rows, vx, vy, k + 1, p)
      {
      }
    }
  }

  /**
    With VF neither the column nor the row register and holding 0 or 1,
    drawing pixels `k` onward leaves VF at 1 exactly when it was already 1 or
    one of the cells they hit was lit before.
   */
  lemma {:induction false} DrawCollision(rows: seq<byte>, x: nibble, y: nibble, k: nat, gfx: seq<bool>, v: seq<byte>)
    requires |gfx| == PixelCount && |v| == RegisterCount && k <= 8 * |rows| && |rows| <= 16
    requires x != Flag && y != Flag && v[Flag] <= 1
    ensures DrawPixels(rows, x, y, k, gfx, v).1[Flag]
      == if v[Flag] == 1 || Collides(rows, v[x], v[y], k, gfx) then 1 else 0
    decreases 8 * |rows| - k
  {
    var vx, vy := v[x], v[y];
    var r := DrawPixels(rows, x, y, k, gfx, v);
    if k == 8 * |rows| {
      return;
    }
    var p0 := Target(vx, vy, k);
    if Lit(rows, k) {
      var collision: byte := if gfx[p0] then 1 else 0;
      var gfx1 := gfx[p0 := !gfx[p0]];
      var v1 := v[Flag := BitOr(v[Flag], collision)];
      BitOrFlags(v[Flag], collision);
      assert r == DrawPixels(rows, x, y, k + 1, gfx1, v1);
      DrawCollision(rows, x, y, k + 1, gfx1, v1);
      CollidesAfterFlip(rows, vx, vy, k, gfx);
      CollidesStep(rows, vx, vy, k, gfx);
    } else {
      assert r == DrawPixels(rows, x, y, k + 1, gfx, v);
      DrawCollision(rows, x, y, k + 1, gfx, v);
      CollidesStep(rows, vx, vy, k, gfx);
    }
  }

  /** Pixels `k` onward collide exactly when pixel `k` is set over a lit cell or a later pixel collides. */
  lemma CollidesStep(rows: seq<byte>, vx: byte, vy: byte, k: nat, gfx: seq<bool>)
    requires |gfx| == PixelCount && k < 8 * |rows|
    ensures Collides(rows, vx, vy, k, gfx)
      == ((Lit(rows, k) && gfx[Target(vx, vy, k)]) || Collides(rows, vx, vy, k + 1, gfx))
  {
    if Collides(rows, vx, vy, k, gfx) && !(Lit(rows, k) && gfx[Target(vx, vy, k)]) {
      var j :| k <= j < 8 * |rows| && Lit(rows, j) && gfx[Target(vx, vy, j)];
      assert j != k;
    }
  }

  /** Flipping the cell under pixel `k` cannot change whether a later pixel of a short sprite collides. */
  lemma CollidesAfterFlip(rows: seq<byte>, vx: byte, vy: byte, k: nat, gfx: seq<bool>)
    requires |gfx| == PixelCount && k < 8 * |rows| && |rows| <= 16
    ensures var p0 := Target(vx, vy, k);
      Collides(rows, vx, vy, k + 1, gfx[p0 := !gfx[p0]]) == Collides(rows, vx, vy, k + 1, gfx)
  {
    var p0 := Target(vx, vy, k);
    forall j | k + 1 <= j < 8 * |rows|
      ensures gfx[p0 := !gfx[p0]][Target(vx, vy, j)] == gfx[Target(vx, vy, j)]
    {
      TargetsDistinct(vx, vy, k, j);
    }
  }

  /** Drawing the same sprite twice at the same place, VF cleared first each time, restores the framebuffer. */
  lemma DrawTwiceRestores(rows: seq<byte>, x: nibble, y: nibble, gfx: seq<bool>, v: seq<byte>)
    requires |gfx| == PixelCount && |v| == RegisterCount && |rows| <= 16
    requires x != Flag && y != Flag
    ensures var once := DrawPixels(rows, x, y, 0, gfx, v[Flag := 0]);
      DrawPixels(rows, x, y, 0, once.0, once.1[Flag := 0]).0 == gfx
  {
    var once := DrawPixels(rows, x, y, 0, gfx, v[Flag := 0]);
    DrawFlips(rows, x, y, 0, gfx, v[Flag := 0]);
    DrawFlips(rows, x, y, 0, once.0, once.1[Flag := 0]);
    var twice := DrawPixels(rows, x, y, 0, once.0, once.1[Flag := 0]);
    assert twice.0 == gfx;
  }
}

=== FILE: state.dfy ===
/**
  The CHIP-8 machine state and the operations on it that are not instruction
  execution: construction, ROM loading, the timer tick, keypad notifications
  and the accessors the host uses.
 */
module State {
  import opened Bytes

  const MemorySize: nat := 4096
  const RegisterCount: nat := 16
  const StackDepth: nat := 16
  const KeyCount: nat := 16
  const ScreenWidth: nat := 64
  const ScreenHeight: nat := 32
  const PixelCount: nat := 2048
  const ProgramStart: nat := 0x200
  /** The room between the program start and the end of memory. */
  const MaxRomSize: nat := 3584
  /** VF, the flag register. */
  const Flag: nibble := 0xF

  /** The built-in hexadecimal font: five rows of one byte for each digit 0-F. */
  const FontSet: seq<byte> := [
    0xF0, 0x90, 0x90, 0x90, 0xF0, // 0
    0x20, 0x60, 0x20, 0x20, 0x70, // 1
    0xF0, 0x10, 0xF0, 0x80, 0xF0, // 2
    0xF0, 0x10, 0xF0, 0x10, 0xF0, // 3
    0x90, 0x90, 0xF0, 0x10, 0x10, // 4
    0xF0, 0x80, 0xF0, 0x10, 0xF0, // 5
    0xF0, 0x80, 0xF0, 0x90, 0xF0, // 6
    0xF0, 0x10, 0x20, 0x40, 0x40, // 7
    0xF0, 0x90, 0xF0, 0x90, 0xF0, // 8
    0xF0, 0x90, 0xF0, 0x10, 0xF0, // 9
    0xF0, 0x90, 0xF0, 0x90, 0x90, // A
    0xE0, 0x90, 0xE0, 0x90, 0xE0, // B
    0xF0, 0x80, 0x80, 0x80, 0xF0, // C
    0xE0, 0x90, 0x90, 0x90, 0xE0, // D
    0xF0, 0x80, 0xF0, 0x80, 0xF0, // E
    0xF0, 0x80, 0xF0, 0x80, 0x80  // F
  ]

  /**
    The machine. Keys and pixels are booleans: the interpreter only ever
    stores 0 or 1 in them.
   */
  datatype Machine = Machine(
    memory: seq<byte>,
    v: seq<byte>,
    stack: seq<word>,
    keys: seq<bool>,
    gfx: seq<bool>,
    delayTimer: byte,
    soundTimer: byte,
    index: word,
    pc: word,
    sp: word,
    drawFlag: bool
  )

  /** The shape every machine keeps: fixed-size arrays and a stack pointer within the stack. */
  predicate Valid(m: Machine) {
    && |m.memory| == MemorySize
    && |m.v| == RegisterCount
    && |m.stack| == StackDepth
    && |m.keys| == KeyCount
    && |m.gfx| == PixelCount
    && m.sp <= StackDepth
  }

  /** The freshly constructed machine. */
  function Init(): (m: Machine)
    ensures Valid(m)
    ensures m.pc == ProgramStart && m.sp == 0 && m.index == 0
    ensures m.delayTimer == 0 && m.soundTimer == 0 && !m.drawFlag
    ensures m.memory[..|FontSet|] == FontSet
    ensures forall a :: |FontSet| <= a < MemorySize ==> m.memory[a] == 0
    ensures forall r :: 0 <= r < RegisterCount ==> m.v[r] == 0
    ensures forall s :: 0 <= s < StackDepth ==> m.stack[s] == 0
    ensures forall k :: 0 <= k < KeyCount ==> !m.keys[k]
    ensures forall p :: 0 <= p < PixelCount ==> !m.gfx[p]
  {
    Machine(
      FontSet + seq(MemorySize - |FontSet|, _ => 0),
      seq(RegisterCount, _ => 0),
      seq(StackDepth, _ => 0),
      seq(KeyCount, _ => false),
      seq(PixelCount, _ => false),
      0, 0, 0, ProgramStart, 0, false)
  }

  /** The five rows of the font glyph for hexadecimal digit `d`. */
  function Glyph(d: nat): seq<byte>
    requires d < 16
  {
    FontSet[5 * d .. 5 * d + 5]
  }

  datatype LoadResult = Loaded(m: Machine) | RomTooLarge

  /** Copies a program into memory from `ProgramStart` on; a program that does not fit is refused. */
  function LoadRom(m: Machine, rom: seq<byte>): (r: LoadResult)
    requires Valid(m)
    ensures r.Loaded? <==> |rom| <= MaxRomSize
    ensures r.Loaded? ==> Valid(r.m)
    ensures r.Loaded? ==> forall k :: 0 <= k < |rom| ==> r.m.memory[ProgramStart + k] == rom[k]
    ensures r.Loaded? ==>
      forall a :: 0 <= a < MemorySize && !(ProgramStart <= a < ProgramStart + |rom|) ==> r.m.memory[a] == m.memory[a]
    ensures r.Loaded? ==> r.m == m.(memory := r.m.memory)
  {
    if |rom| > MaxRomSize then RomTooLarge
    else Loaded(m.(memory := m.memory[..ProgramStart] + rom + m.memory[ProgramStart + |rom|..]))
  }

  /** The 60 Hz tick: each timer counts down by one and stops at zero. */
  function StepTimers(m: Machine): (r: Machine)
    ensures r.delayTimer == if m.delayTimer == 0 then 0 else m.delayTimer - 1
    ensures r.soundTimer == if m.soundTimer == 0 then 0 else m.soundTimer - 1
    ensures r == m.(delayTimer := r.delayTimer, soundTimer := r.soundTimer)
  {
    m.(delayTimer := if m.delayTimer > 0 then m.delayTimer - 1 else m.delayTimer,
       soundTimer := if m.soundTimer > 0 then m.soundTimer - 1 else m.soundTimer)
  }

  /** `k` consecutive timer ticks. */
  function Ticks(m: Machine, k: nat): Machine {
    if k == 0 then m else StepTimers(Ticks(m, k - 1))
  }

  function Max(a: int, b: int): int {
    if a < b then b else a
  }

  /** After `k` ticks each timer has gone down by `k`, but never below zero, and nothing else changed. */
  lemma {:induction false} TicksCountDown(m: Machine, k: nat)
    ensures Ticks(m, k).delayTimer == Max(m.delayTimer - k, 0)
    ensures Ticks(m, k).soundTimer == Max(m.soundTimer - k, 0)
    ensures Ticks(m, k) == m.(delayTimer := Ticks(m, k).delayTimer, soundTimer := Ticks(m, k).soundTimer)
  {
    if k > 0 {
      TicksCountDown(m, k - 1);
    }
  }

  /** Marks key `code` as held down. */
  function PressKey(m: Machine, code: nat): (r: Machine)
    requires Valid(m) && code < KeyCount
    ensures Valid(r) && r.keys[code]
    ensures forall k :: 0 <= k < KeyCount && k != code ==> r.keys[k] == m.keys[k]
    ensures r == m.(keys := r.keys)
  {
    m.(keys := m.keys[code := true])
  }

  /** Marks key `code` as released. */
  function ReleaseKey(m: Machine, code: nat): (r: Machine)
    requires Valid(m) && code < KeyCount
    ensures Valid(r) && !r.keys[code]
    ensures forall k :: 0 <= k < KeyCount && k != code ==> r.keys[k] == m.keys[k]
    ensures r == m.(keys := r.keys)
  {
    m.(keys := m.keys[code := false])
  }

  /** Key notifications are idempotent, and releasing a key that was up before the press undoes the press. */
  lemma KeyNotifications(m: Machine, code: nat)
    requires Valid(m) && code < KeyCount
    ensures PressKey(PressKey(m, code), code) == PressKey(m, code)
    ensures ReleaseKey(ReleaseKey(m, code), code) == ReleaseKey(m, code)
    ensures !m.keys[code] ==> ReleaseKey(PressKey(m, code), code) == m
  {
    if !m.keys[code] {
      assert ReleaseKey(PressKey(m, code), code).keys == m.keys;
    }
  }

  /** The host acknowledges that it has rendered the framebuffer. */
  function ResetDrawFlag(m: Machine): (r: Machine)
    ensures !r.drawFlag
    ensures r == m.(drawFlag := false)
  {
    m.(drawFlag := false)
  }

  function GetDrawFlag(m: Machine): bool {
    m.drawFlag
  }

  function GetSoundTimer(m: Machine): byte {
    m.soundTimer
  }

  /** One framebuffer cell as the byte 0 or 1. */
  function GetPixelData(m: Machine, p: nat): (r: byte)
    requires Valid(m) && p < PixelCount
    ensures r <= 1
    ensures r == 1 <==> m.gfx[p]
  {
    if m.gfx[p] then 1 else 0
  }
}
